=== FILE: README.md ===
# ComfyUI fal.ai nodes — a Dafny model of the job layer and the core nodes

This project models the part of the ComfyUI fal.ai node pack that decides what
is sent to fal.ai and what comes back to the host graph:

- **Credentials** (`FalConfig`, `fal_config.dfy`). The API key is read from
  the environment or the config file and stripped. `refresh_key` hot-swaps
  the key. The client is built lazily and dropped on every refresh.
- **The job runner** (`ApiHandler`, `api_handler.dfy`). It submits a job and
  follows the status stream. A pending event seen past the deadline cancels
  the job once. It then fetches the result and rejects payloads that report
  a failure (`error`, or `status` FAILED/ERROR). Finally it turns the outcome
  into the node's output: images, a video URL or text. Errors become a
  placeholder image or an "Error: … Details: …" string; they never raise into
  the host.
- **Image payloads** (`ResultProcessor`, `result_processor.dfy`). URLs are
  picked from `images`, else `image`, else `output`. Empty and non-string
  URLs are dropped. Duplicates are removed, keeping first occurrences in
  order. The whole batch is downloaded and stacked, which needs every
  picture to have the same size; otherwise the 512×512 black placeholder is
  returned.
- **Uploads** (`ImageUtils`, `image_utils.dfy`). An upload that fails or
  returns an empty URL counts as a failure. Multi-slot uploads go in slot
  order and are all-or-nothing.
- **Frame rate** for video uploads (`VideoUtils`, `video_utils.dfy`).
- **The nodes**:
  - the Kling family (`kling.dfy`);
  - Luma Dream Machine (`luma.dfy`);
  - Nano Banana generation and editing (`nanobanana.dfy`);
  - the Flux family (`flux.dfy`): the classic nodes, FluxLora, FluxGeneral
    with IP-adapter/ControlNet/ControlNet-union entries, and the three
    Kontext nodes;
  - the combined six-provider video node (`combined.dfy`).

Each node is split into a *plan* and a runner. The plan is the request it
would submit, or the refusal it answers with before any job. `RunImagePlan`
and `RunVideoPlan` in `ApiHandler` run a plan against the environment.

Anything outside the process is a parameter:

- `Remote` says whether submission fails. It also gives the status events,
  each with the clock reading taken after it, how the stream ends, whether
  `cancel` fails, and what the fetch returns.
- `ImageRef -> Option<string>` is the upload oracle.
- `string -> Option<Size>` gives the width and height of the picture a URL downloads to, or None when the download or decoding fails.

JSON payloads are the `Json` datatype in `values.dfy`. That file also holds
the Python builtins the code relies on: truthiness, `dict.get`,
`str()`/`repr()`, `str.strip()`, `str.join` and `int()` of a string.

## Model

| member | source | states |
|---|---|---|
| Values.Strip | nodes/fal_utils.py:49-50 | The stripped key is the factor of the input left after removing a whitespace prefix and a whitespace suffix, and it neither starts nor ends with whitespace. |
| Values.StripIdempotent | nodes/fal_utils.py:65 | Stripping a stripped key changes nothing. |
| Values.ParseIntOfDecimal | nodes/video/kling.py:59-62 | `int()` of the decimal rendering of any integer, negative ones included, gives that integer back. |
| Values.JoinLayout | nodes/fal_utils.py:521 | `sep.join(parts)` holds the parts in order, each at its offset, with one separator after each part but the last, and its length is exactly that. |
| FalConfig.Initial | nodes/fal_utils.py:49-53 | The key is the stripped environment key if non-empty, else the stripped file key if non-empty, else absent. No client is cached at start. |
| FalConfig.RefreshKey | nodes/fal_utils.py:61-66 | After a refresh no client is cached. A usable key exists exactly when the argument strips to something non-empty, and then it is the stripped argument. |
| FalConfig.GetClient | nodes/fal_utils.py:68-79 | A client is returned exactly when a non-empty key is set, and it is built for that key. Without a key the state is untouched. The key never changes. |
| FalConfig.GetClientIsStable | nodes/fal_utils.py:76-79 | A second call hands back the same cached client and leaves the state as the first call left it. |
| FalConfig.RefreshRebuildsClient | nodes/fal_utils.py:61-79 | After a refresh, the next request builds a new client for the stripped key. It is distinct from any client cached before. |
| FalConfig.BlankKeyRefusesClient | nodes/fal_utils.py:61-74 | A whitespace-only key is stored as "" and still makes `get_client` refuse. |
| VideoUtils.FirstUsable | nodes/fal_utils.py:201-203 | The result is the value of the first candidate that is a positive number (booleans count as 0/1). It is absent exactly when no candidate qualifies. |
| VideoUtils.ResolveFps | nodes/fal_utils.py:195-204 | The rate is `loaded_fps` if usable, else `source_fps` if usable, else 24. Non-dict metadata gives 24. The rate is always positive. |
| VideoUtils.TrueIsOneFps | nodes/fal_utils.py:202-203 | A boolean True passes the number test and is taken as 1 fps. |
| ResultProcessor.BlankImage | nodes/fal_utils.py:378-383 | The fallback is a single 512×512 picture with every channel at 0. |
| ResultProcessor.EntryUrls | nodes/fal_utils.py:307-312 | The collected values keep list order and repeats: one per entry that names a value, as a dict's `url` or as a bare string, each at its rank among the naming entries before it; nothing else is collected. |
| ResultProcessor.EntryUrlsMembers | nodes/fal_utils.py:307-312 | A value is collected exactly when some entry of the list names it. |
| ResultProcessor.UniqueUrls | nodes/fal_utils.py:334-341 | Every result is a non-empty string taken from the candidates. Every non-empty string candidate appears in the result, and none appears twice. |
| ResultProcessor.UniqueUrlsFirstOccurrenceOrder | nodes/fal_utils.py:334-341 | The kept URLs are in the order of their first occurrence among the candidates. |
| ResultProcessor.DeduplicateUrls | nodes/fal_utils.py:334-341 | The single pass with a `seen` set computes the deduplicated list above. |
| ResultProcessor.ProcessImageResult | nodes/fal_utils.py:350-370 | A batch comes back exactly when at least one URL was extracted, every URL decodes, and all the pictures have one size, as stacking requires. The batch is those URLs in order, with that size. Otherwise the output is the placeholder. |
| ResultProcessor.MixedSizesGiveBlank | nodes/fal_utils.py:354 | Two extracted pictures of different sizes make the stack fail, so the result is the placeholder. |
| ResultProcessor.ImagesRuleWins | nodes/fal_utils.py:303-313 | When `images` yields any entry, `image` and `output` are not consulted. |
| ResultProcessor.ImageRuleSecond | nodes/fal_utils.py:314-319 | `image` decides only when `images` yields no entry at all. |
| ResultProcessor.FalsyImagesIgnored | nodes/fal_utils.py:304 | A falsy `images` value (None, "", [], {}) extracts the same URLs as a missing key. |
| ResultProcessor.StringImagesIgnored | nodes/fal_utils.py:304-312 | A string `images` value names no image. |
| ResultProcessor.DuplicatesCollapse | nodes/fal_utils.py:334-341 | The entries a, b, a give the URLs a, b. |
| ResultProcessor.ImagesBeatImage | nodes/fal_utils.py:303-320 | With both `images` and `image` present, only the `images` URL is used. |
| ResultProcessor.NullUrlBlocksFallback | nodes/fal_utils.py:303-320 | An `images` entry whose `url` is null still blocks the `image` fallback, so no URL results. |
| ImageUtils.Upload | nodes/fal_utils.py:119-140 | An upload of a picture, or of a mask converted to a picture, counts exactly when the uploader returns a non-empty URL, and then that URL is used. |
| ImageUtils.UploadAll | nodes/image/nanobanana.py:72-82 | The upload succeeds exactly when every present slot uploads. The URLs are then one per present slot, in slot order: the slot after k present slots gets position k. |
| ApiHandler.Wrap | nodes/fal_utils.py:436-439 | Every exception inside the polling `try` becomes a FalAPIError for the endpoint. |
| ApiHandler.Poll | nodes/fal_utils.py:428-439 | Polling cancels at most once. A polling failure is always a FalAPIError for the endpoint. |
| ApiHandler.TimeoutMessageText | nodes/fal_utils.py:431-439 | The timeout error's message is "<endpoint>: Request timed out while waiting for completion". The loop's own FalAPIError is caught by the catch-all handler and wrapped again, so the endpoint prefix is part of the message. |
| ApiHandler.CompletedStopsPolling | nodes/fal_utils.py:428-430 | The first Completed event stops polling with no cancel, even when it arrives after the deadline. |
| ApiHandler.LateEventCancelsOnce | nodes/fal_utils.py:431-433 | The first pending event past the deadline causes exactly one cancel. It fails with the timeout error, or with the cancel call's own error when that raises. |
| ApiHandler.QuietStreamFetches | nodes/fal_utils.py:428-435 | A stream that ends while every event was on time goes on to the fetch, or fails with the stream's error, and never cancels. |
| ApiHandler.CancelIffLate | nodes/fal_utils.py:428-433 | A cancel happens if and only if some pending event is past the deadline and every earlier event was pending and on time. |
| ApiHandler.ExtractResultError | nodes/fal_utils.py:410-417 | Non-dicts report no error. A truthy `error` is reported as its `str()`. |
| ApiHandler.ShowTruthyNonEmpty | nodes/fal_utils.py:412-416 | The `str()` of a truthy value or of a dict is never empty, so a detail always raises. |
| ApiHandler.CheckResultSpec | nodes/fal_utils.py:410-445 | A payload is rejected with a FalAPIError exactly when it reports a failure. The message is `error`, else `message`, else the whole payload. A list or dict `status` raises TypeError instead. Any other payload is returned unchanged. |
| ApiHandler.SubmitAndGetResult | nodes/fal_utils.py:420-445 | Without a key nothing is submitted. A job is cancelled at most once. A fetch happens only after a submission and never after a cancel. A successful result is the fetched payload. An unwrapped exception comes only from a missing key, the submission, or the post-fetch check. |
| ApiHandler.JobSucceedsIff | nodes/fal_utils.py:420-445 | With a key and an accepted submission, a job succeeds exactly when polling reaches the fetch, the fetch returns a payload, and the payload neither reports a failure nor has a list or dict `status`. The result is then that payload, fetched once and never cancelled. |
| ApiHandler.JobTimesOut | nodes/fal_utils.py:426-433 | A job with a late pending event before completion is cancelled once, never fetched, and fails with the doubled timeout message. |
| ApiHandler.FirstVideoEntry | nodes/fal_utils.py:487-492 | A URL is found exactly when some `output` item is a dict with `url` or a string. It comes from the first such item: that dict's `url` stringified, or the string itself. |
| ApiHandler.FirstMatch | nodes/fal_utils.py:472-495 | The rules are tried in order and the first one that matches decides. Nothing matches only when every rule fails. |
| ApiHandler.ExtractVideoUrlIsFirstMatch | nodes/fal_utils.py:472-495 | The video URL is the first match of the rules, in order: `video` dict, `video` list head, `output`, top-level string `url`. |
| ApiHandler.StringOutputIsNoVideo | nodes/fal_utils.py:483-495 | A bare string under `output` is not accepted as a video URL. |
| ApiHandler.RunImageJob | nodes/fal_utils.py:448-457 | A failed job gives the placeholder. A payload is processed into images; a batch is never empty. |
| ApiHandler.RunVideoJob | nodes/fal_utils.py:498-508 | A failed job gives "Error: Unable to generate video. Details: <message>". A payload gives its video URL, or that error with "did not include a video url". |
| ApiHandler.TextOf | nodes/fal_utils.py:517-522 | Text exists exactly when `output` is a string or a list. A string is returned verbatim. A list gives the strip of the newline-join of each item's `str()`, with no whitespace at either end. |
| ApiHandler.TextOfListLayout | nodes/fal_utils.py:519-522 | When the joined text has nothing to strip, it holds each item's `str()` in order at its offset, with a newline after each but the last and nothing else. |
| ApiHandler.RunTextJob | nodes/fal_utils.py:511-525 | A failed job gives "Error: Unable to generate text. Details: <message>". A payload gives its text, or that error with "did not include textual output". |
| ApiHandler.TextJoinExample | nodes/fal_utils.py:520-522 | The output list a, b, c reads as "a\nb\nc". |
| ApiHandler.VideoJobTimeoutText | nodes/fal_utils.py:528-532 | A timed-out video job reports "Error: Unable to generate video. Details: <endpoint>: Request timed out while waiting for completion". |
| Kling.BaseArgs | nodes/video/kling.py:64-74 | The body has prompt, duration and aspect ratio. `cfg_scale` is present exactly when the variant supports it. `negative_prompt` is present exactly when supported and non-empty. |
| Kling.ImageToVideo | nodes/video/kling.py:84-99 | The job is refused exactly when a tail-capable variant is given a tail image that fails to upload, and the refusal says so. A submitted body adds the image URL, and the tail URL only for a tail-capable variant. |
| Kling.Route | nodes/video/kling.py:76-108 | The job is refused exactly when an image comes without an image endpoint, the image or tail upload fails, or no image comes without a text endpoint; an unsupported image is refused before uploading. A submission goes to the endpoint for the input kind and keeps every base field. |
| Kling.UnsupportedImageNeverUploads | nodes/video/kling.py:78-82 | An image for a variant without an image endpoint gives the not-supported error whatever the uploader does. |
| Kling.SubmittedKeysFollowVariant | nodes/video/kling.py:64-99 | A submitted body carries `cfg_scale`, `negative_prompt` and `tail_image_url` exactly under their variant flags. The duration goes through as converted. |
| Kling.TailWithoutImageIgnored | nodes/video/kling.py:91-101 | A tail image without a main image changes nothing. |
| Kling.FailedUploadSubmitsNothing | nodes/video/kling.py:84-88 | When the main upload fails, the output does not depend on the remote service. |
| Kling.ShippedVariantsConfigured | nodes/video/kling.py:111-151 | All six shipped variants have non-empty text and image endpoints. |
| Kling.DecimalDurationSentAsInteger | nodes/video/kling.py:59-62 | A duration written as a decimal integer is sent as that integer. |
| Kling.DurationsSentAsIntegers | nodes/video/kling.py:59-62 | The choices "5" and "10" are sent as 5 and 10. |
| Luma.BaseArgs | nodes/video/luma.py:35-39 | The body has exactly prompt, aspect ratio and loop. |
| Luma.Plan | nodes/video/luma.py:32-67 | A mode other than image-to-video uses the text endpoint with the base body. Image mode is refused exactly when the image is missing, its upload fails, or a given end image fails to upload, with those messages in that order. Otherwise it submits the base body plus the image URL and, if given, the end-image URL. |
| Luma.TextModeIgnoresImages | nodes/video/luma.py:43-65 | In text mode the images and the uploader do not affect the plan. |
| Luma.RefusalIgnoresRemote | nodes/video/luma.py:43-63 | A refusal answers with its message and never depends on the remote service. |
| Luma.OnlyImageModeRefuses | nodes/video/luma.py:43-67 | Only image-to-video mode refuses, and only with one of its three messages. |
| NanoBanana.CommonArgs | nodes/image/nanobanana.py:30-34 | The generation body has exactly prompt, image count and output format. |
| NanoBanana.GeneratePlan | nodes/image/nanobanana.py:29-36 | Generation always submits to the Nano Banana endpoint. The body has exactly the keys `prompt`, `num_images` and `output_format`, holding the given prompt, count and format. |
| NanoBanana.EditPlan | nodes/image/nanobanana.py:72-98 | Editing gives up exactly when an upload fails or no slot holds an image. Otherwise it submits one URL per present slot, in slot order, with the given prompt, count and output format. |
| NanoBanana.FailedEditUploadGivesBlank | nodes/image/nanobanana.py:74-82 | A failed upload in any slot gives the placeholder, whatever the remote service would do. |
| NanoBanana.SingleLaterSlot | nodes/image/nanobanana.py:72-94 | An image only in the second slot is sent as a one-element URL list. |
| Flux.ClassicArgs | nodes/image/flux.py:61-73 | The body keeps the node's settings. It adds `image_size` (a width/height dict for "custom", else the preset name) and `seed` exactly when the seed is not -1. |
| Flux.ClassicPlan | nodes/image/flux.py:61-77 | A classic node always submits one job to its own endpoint. |
| Flux.FluxProPlan | nodes/image/flux.py:49-77 | FluxPro submits to its endpoint exactly the prompt, steps, guidance, count, safety tolerance and size, plus the seed unless it is -1. A custom size is sent as a width/height dict, and a preset by name. |
| Flux.FluxDevPlan | nodes/image/flux.py:123-151 | FluxDev submits exactly the prompt, steps, guidance, count, safety checker and size, plus the seed unless it is -1. |
| Flux.FluxSchnellPlan | nodes/image/flux.py:196-222 | FluxSchnell submits exactly the prompt, steps, count, safety checker and size, with no guidance, plus the seed unless it is -1. |
| Flux.FluxPro11Plan | nodes/image/flux.py:266-290 | FluxPro 1.1 submits exactly the prompt, count, safety tolerance and size, plus the seed unless it is -1. |
| Flux.FluxUltraPlan | nodes/image/flux.py:320-343 | FluxUltra sends the aspect ratio and never an `image_size`, alongside the prompt, count, safety tolerance, safety checker and raw flag, plus the seed unless it is -1. |
| Flux.ClassicSeedSentinel | nodes/image/flux.py:72-73 | `seed` is sent exactly when it is not -1, so 0 is sent. |
| Flux.Loras | nodes/image/flux.py:433-437 | One entry per non-empty path; the first path's entry comes first. |
| Flux.WithLoras | nodes/image/flux.py:438-439 | `loras` is attached exactly when there is an entry. Other fields are unchanged. |
| Flux.FluxLoraPlan | nodes/image/flux.py:402-443 | FluxLora always submits. The body is the FluxDev body (prompt, steps, guidance, count, safety checker, size, seed) with nothing else but `loras`. `loras` is present exactly when a path is given and holds the entries. |
| Flux.NoLorasWithoutPaths | nodes/image/flux.py:433-439 | Two empty paths leave the body without a `loras` key, not with an empty list. |
| Flux.SecondLoraAlone | nodes/image/flux.py:433-439 | Only a second path gives a single entry, for that path. |
| Flux.ControlnetPath | nodes/image/flux.py:604-617 | A known ControlNet name becomes the URL of its weight file in the repository of that name. Any other name is sent unchanged. |
| Flux.ControlnetMappingExamples | nodes/image/flux.py:604-617 | The InstantX Canny and XLabs depth names map to their weight files, and an unknown name passes through. |
| Flux.ControlnetEntry | nodes/image/flux.py:616-654 | The ControlNet entry exists exactly when a ControlNet is chosen. |
| Flux.ControlnetEntryFields | nodes/image/flux.py:616-654 | The entry always has the mapped path and scale. The control image URL is added when it uploads, and the mask URL only after it. |
| Flux.UnionEntry | nodes/image/flux.py:626-677 | The union entry exists exactly when a union is chosen, with its name as path and a single control. |
| Flux.UnionControlFields | nodes/image/flux.py:657-677 | The union control has its mode, then the control image URL when it uploads, and the mask URL only after it. |
| Flux.IpAdapterEntry | nodes/image/flux.py:594-700 | The IP-adapter entry exists exactly when an adapter is chosen. |
| Flux.IpAdapterEntryFields | nodes/image/flux.py:680-700 | Without an uploaded adapter image the entry keeps the raw name and has no image. With one, it gains the image URL and an uploaded mask, and the XLabs name becomes its weight-file URL. |
| Flux.WithAdapters | nodes/image/flux.py:594-677 | Each chosen entry is attached as a one-element list under its key. The classic body is kept. |
| Flux.GeneralArgs | nodes/image/flux.py:577-709 | Each adapter key, and `loras`, is present exactly when its entry exists. It then holds that entry as a one-element list, or the LoRA list. The classic body is kept unchanged, and no other key is added. |
| Flux.FluxGeneralPlan | nodes/image/flux.py:549-713 | FluxGeneral always submits, whatever the uploads do. `ip_adapters` and `loras` follow the choices alone. The body is the classic settings, size and seed plus only the chosen adapter keys and `loras`. A chosen IP-adapter, ControlNet or union is sent as its entry built from the uploads. |
| Flux.SentControlnetCarriesUpload | nodes/image/flux.py:615-654 | The ControlNet entry FluxGeneral sends has the mapped weight path and the scale. It has `control_image_url` exactly when the control image uploads, and that key holds the upload's URL. |
| Flux.ControlChoicesDecideKeys | nodes/image/flux.py:616-677 | `controlnets` and `controlnet_unions` are sent exactly when chosen, whatever the uploads do. |
| Flux.FailedControlUploadKeepsEntry | nodes/image/flux.py:639-649 | A failed control-image upload leaves the plain ControlNet entry in place. |
| Flux.MaskNeedsControlImage | nodes/image/flux.py:650-677 | Without an uploaded control image the mask and its upload have no effect. |
| Flux.XLabsPathNeedsImage | nodes/image/flux.py:680-687 | The XLabs adapter is sent as its weight-file URL only when its image uploads, else by name. |
| Flux.KontextArgs | nodes/image/flux.py:784-795 | The Kontext body holds the prompt, aspect ratio (null when unset), guidance, count, safety tolerance and output format as given, and `seed` exactly when it is positive. |
| Flux.KontextRequest | nodes/image/flux.py:773-782 | `max_quality` picks the max model name and the max endpoint together. |
| Flux.KontextPlan | nodes/image/flux.py:761-797 | Single-image Kontext gives up exactly when the upload fails. Otherwise it adds the image URL to the body and keeps every Kontext setting's value. |
| Flux.KontextMultiPlan | nodes/image/flux.py:848-897 | Kontext Multi gives up exactly when an upload fails or fewer than two images are present. Otherwise it sends one URL per present slot, in slot order, and keeps every Kontext setting's value. |
| Flux.KontextTextPlan | nodes/image/flux.py:933-961 | Text-to-image Kontext always submits the common body to the endpoint `max_quality` selects. |
| Flux.SeedSentinelsDiffer | nodes/image/flux.py:794-795 | Seed 0 is left out by Kontext but sent by the classic nodes. |
| Flux.SingleImageRefused | nodes/image/flux.py:868-879 | Kontext Multi with one image gives the placeholder even when it uploads. |
| Combined.ProviderArgs | nodes/video/combined.py:51-188 | Every provider body carries the prompt and the uploaded image URL. Both Kling bodies add the Kling duration and the shared aspect ratio, Veo2 its own duration and aspect ratio, Luma the shared aspect ratio and loop, and Wan Pro the safety checker and a null seed. MiniMax adds nothing. |
| Combined.Examine | nodes/video/combined.py:64-73 | A reply yields a URL exactly when `video` is a dict with `url`. Polling goes on exactly when the reply is a dict whose status is not FAILED and whose `video`, if present, passes the `"url" in` test without raising and without a hit. Anything else, non-dicts included, ends the run with the provider's error. |
| Combined.Poll | nodes/video/combined.py:64-73 | Polling ends exactly when some reply is decisive. The answer is that of the first decisive reply: its URL, or the provider's error text. |
| Combined.RunProvider | nodes/video/combined.py:54-73 | A failed submission gives the provider's error text. Otherwise the answer is the polling verdict over the provider's replies. |
| Combined.Gather | nodes/video/combined.py:258-260 | The gather completes exactly when every enabled provider finishes. The answers are in slot order, the enabled slot after k enabled slots at position k. |
| Combined.Assign | nodes/video/combined.py:262-268 | An enabled slot takes the answer at its rank among enabled slots. A disabled slot says "Service disabled". |
| Combined.Slots | nodes/video/combined.py:207-270 | With nothing enabled every slot stays None. Otherwise the slots are assigned by rank. |
| Combined.MapSlots | nodes/video/combined.py:258-270 | The source's loop computes exactly the slots `Combined.Slots` describes: it starts from six Nones and, when any task ran, walks the slots with a running index into the gathered answers. |
| Combined.GenerateAllVideos | nodes/video/combined.py:190-273 | The node answers exactly when every enabled provider's run ends, and six slots come back. Each run is the remote's answer to that provider's request. A failure of the aggregate step fills all six with "Error: Unable to generate videos.". |
| Combined.GenerateVideos | nodes/video/combined.py:291-317 | A failed upload answers all six slots with "Error: Unable to upload image.". Otherwise the aggregate step runs with the uploaded URL. |
| Combined.SlotsHoldOwnAnswers | nodes/video/combined.py:258-270 | An enabled slot holds its own provider's answer. A disabled slot says "Service disabled". |
| Combined.NothingEnabledLeavesNone | nodes/video/combined.py:206-270 | With every provider disabled, all six slots are None rather than "Service disabled". |
| Combined.ProvidersIsolated | nodes/video/combined.py:212-270 | A slot's answer depends only on its own provider's run: two remotes that give that provider the same run give the slot the same answer. |
| Combined.FirstVideoUrlWins | nodes/video/combined.py:64-67 | A first reply with a `video` dict holding `url` ends polling with that URL. |
| Combined.FailedStatusIsProviderError | nodes/video/combined.py:68-73 | A first reply with status FAILED and no video gives the provider's error text. |
| Combined.EnabledSlotAnswersItsRequest | nodes/video/combined.py:212-270 | An enabled slot's answer is the remote's answer to that provider's own request, which carries the prompt and the uploaded URL. The node answers exactly when every enabled run ends. |
| Combined.SharedEndpointsAgree | nodes/video/combined.py:61-62 | The Kling Pro, Kling Master and Luma providers submit to the same image-to-video endpoints as the Kling v1.6 pro, Kling v2 master and Luma nodes. |

## Left out

- Networking is left out: HTTP, the fal client SDK, the upload calls and image downloads. They become the oracles `Remote`, the uploader and `fetch`.
- Pixels are left out: tensor↔PIL conversion, `mask_to_image`, MP4 encoding and `upload_video`. A picture is an opaque `ImageRef`/`MaskRef`. A downloaded picture is only its size after conversion to RGB, and a batch is the list of URLs its pictures came from plus their common size.
- Threads, locks and asyncio are left out. The combined node's concurrent tasks are given as the reply sequence the remote gives each provider's request. A provider that never finishes makes the node's result None.
- Environment and config-file reading, the placeholder-key warning, prints and `INPUT_TYPES` are left out. `Initial` takes the two raw keys as arguments.
- `_format_http_error` is left out. Its text is a field of `HttpFault`, because it depends on the HTTP response object.
- `Values.Repr`: numbers are one `real`, so an integral value renders as an int (`1`) even where Python has the float `1.0` and shows `1.0` or `1e+20`. Other floats render as a fixed placeholder and dicts as `{...}`. Strings are quoted with single quotes and nothing is escaped, where Python switches to double quotes for a string containing `'` and escapes backslashes and control characters. NaN and infinity are not modelled.
- `Values.Show`: inherits those limits of `Values.Repr` for every non-string value, which reaches the text of nested `output` items and the error details shown for non-string `error` values and payloads.
- `Values.ParseInt`: accepts only ASCII digits, not other Unicode decimal digits.
- The uploader is a function, so the same picture always uploads to the same answer. FluxGeneral uploads the control image once for the ControlNet and once for the union; the model assumes both calls agree.
- `ApiHandler.SubmitAndGetResult` checks for a key but does not thread the cached client through the job. Client caching is modelled on its own in `FalConfig`.
- The job deadline is a field of the environment; the 600-second default and the environment variable that overrides it are not modelled.
- The polling interval and the clock are not modelled. The clock reading after each event is part of the remote.
- Kling.Plan: has no contract of its own. Its properties are stated on `Kling.Route` and `Kling.BaseArgs` for any converted duration, and `Kling.DecimalDurationSentAsInteger` covers the conversion.
- Flux.UnionControl: has no contract of its own. `Flux.UnionControlFields` states its fields.
- Flux.KontextArgs: takes `aspect_ratio` as an optional string so that a None from the host is sent as null.
- The ControlNet table is stated as the set of known names plus the rule that builds each weight-file URL. The URLs are the same as the source's.
- `process_single_image_result` and `run_single_image_job` are left out: they behave exactly like the image versions modelled.
- The outer `except` of `generate_videos` is left out. It only catches failures in creating or running the event loop, since `generate_all_videos` catches everything else and the upload helper never raises.

=== FILE: api_handler.dfy ===
/**
 * The job layer: submit a request, follow the job's status stream until it
 * completes or runs past the deadline, fetch the payload, reject payloads
 * that report a failure, and turn whatever happened into the node's output
 * (images, a video URL or text), never raising into the host.
 *
 * The remote service is an oracle (`Remote`): whether submission fails, the
 * status events with the clock reading taken after each one, how the stream
 * ends, whether the cancel call fails, and what fetching the result gives.
 */
module ApiHandler {
  import opened Values
  import FalConfig
  import opened ResultProcessor

  const TimeoutMessage: string := "Request timed out while waiting for completion"
  const NoVideoUrlMessage: string := "FAL response did not include a video url"
  const NoTextMessage: string := "FAL response did not include textual output"

  /**
   * An exception raised by the client library: `text` is `str(exc)`;
   * for an HTTP error, `formatted` is what the error formatter makes of its
   * response (status code, reason and error detail).
   */
  datatype Fault = HttpFault(text: string, formatted: string) | OtherFault(text: string)

  /** What escapes the job runner: the wrapped error, or an exception raised before the wrapping starts. */
  datatype Failure = FalApiError(endpoint: string, message: string) | Raised(text: string)

  /** `str(exc)` */
  function Describe(f: Failure): string {
    match f
    case FalApiError(endpoint, message) => endpoint + ": " + message
    case Raised(text) => text
  }

  /** What the error handlers print and report: the message of a wrapped error, else `str(exc)`. */
  function Message(f: Failure): string {
    match f
    case FalApiError(_, message) => message
    case Raised(text) => text
  }

  /** The wrapping done inside the polling `try`: HTTP errors are formatted, anything else stringified. */
  function Wrap(endpoint: string, f: Fault): (e: Failure)
    ensures e.FalApiError? && e.endpoint == endpoint
  {
    match f
    case HttpFault(_, formatted) => FalApiError(endpoint, formatted)
    case OtherFault(text) => FalApiError(endpoint, text)
  }

  datatype Status = Queued | InProgress | Completed

  /** A status event and the monotonic clock reading taken right after it arrived. */
  datatype Event = Event(status: Status, at: real)

  datatype StreamEnd = Exhausted | Broke(fault: Fault)

  datatype Remote = Remote(
    submitFault: Option<Fault>,
    start: real,
    events: seq<Event>,
    streamEnd: StreamEnd,
    cancelFault: Option<Fault>,
    fetched: Result<Json, Fault>)

  /**
   * Everything a node call depends on besides its own inputs: credentials,
   * the job deadline in seconds (600 unless the environment overrides it),
   * the remote service, and the size of the picture behind each image URL.
   */
  datatype Env = Env(config: FalConfig.Config, timeout: real, remote: Remote, fetch: string -> Option<Size>)

  // ---------------------------------------------------------------------
  // Following the status stream

  datatype PollEnd = ReadyToFetch | PollFailed(error: Failure)

  /** Where polling stopped, and how often `cancel` was called on the way. */
  datatype PollRun = PollRun(end: PollEnd, cancels: nat)

  /** An event after which the loop keeps waiting: not completed, and the deadline not yet passed. */
  predicate StillWaiting(e: Event, start: real, timeout: real) {
    e.status != Completed && !(e.at - start > timeout)
  }

  /** The error that surfaces on a timeout: the loop's own FalAPIError, re-wrapped by the catch-all. */
  function TimeoutFailure(endpoint: string): Failure {
    Wrap(endpoint, OtherFault(Describe(FalApiError(endpoint, TimeoutMessage))))
  }

  function Poll(endpoint: string, timeout: real, start: real, events: seq<Event>, streamEnd: StreamEnd,
                cancelFault: Option<Fault>): (p: PollRun)
    ensures p.cancels <= 1
    ensures p.end.PollFailed? ==> p.end.error.FalApiError? && p.end.error.endpoint == endpoint
    decreases |events|
  {
    if events == [] then
      match streamEnd
      case Exhausted => PollRun(ReadyToFetch, 0)
      case Broke(f) => PollRun(PollFailed(Wrap(endpoint, f)), 0)
    else if events[0].status == Completed then PollRun(ReadyToFetch, 0)
    else if events[0].at - start > timeout then
      match cancelFault
      case Some(f) => PollRun(PollFailed(Wrap(endpoint, f)), 1)
      case None => PollRun(PollFailed(TimeoutFailure(endpoint)), 1)
    else Poll(endpoint, timeout, start, events[1..], streamEnd, cancelFault)
  }

  /** The timeout message names the endpoint twice: once from the loop, once from the re-wrap. */
  lemma TimeoutMessageText(endpoint: string)
    ensures TimeoutFailure(endpoint) == FalApiError(endpoint, endpoint + ": " + TimeoutMessage)
    ensures Message(TimeoutFailure(endpoint)) == endpoint + ": " + TimeoutMessage
  {
  }

  /**
   * The first `Completed` event ends polling, even one that arrives after the
   * deadline: no timeout check is made on it and nothing is cancelled.
   */
  lemma {:induction false} CompletedStopsPolling(endpoint: string, timeout: real, start: real, events: seq<Event>,
                                                 streamEnd: StreamEnd, cancelFault: Option<Fault>, i: nat)
    requires i < |events| && events[i].status == Completed
    requires forall k :: 0 <= k < i ==> StillWaiting(events[k], start, timeout)
    ensures Poll(endpoint, timeout, start, events, streamEnd, cancelFault) == PollRun(ReadyToFetch, 0)
  {
    if i > 0 {
      assert StillWaiting(events[0], start, timeout);
      assert forall k :: 0 <= k < i - 1 ==> events[1..][k] == events[k + 1];
      CompletedStopsPolling(endpoint, timeout, start, events[1..], streamEnd, cancelFault, i - 1);
    }
  }

  /**
   * The first pending event seen past the deadline triggers exactly one
   * cancel and the timeout error (or the cancel call's own error if it fails).
   */
  lemma {:induction false} LateEventCancelsOnce(endpoint: string, timeout: real, start: real, events: seq<Event>,
                                                streamEnd: StreamEnd, cancelFault: Option<Fault>, i: nat)
    requires i < |events| && events[i].status != Completed && events[i].at - start > timeout
    requires forall k :: 0 <= k < i ==> StillWaiting(events[k], start, timeout)
    ensures var p := Poll(endpoint, timeout, start, events, streamEnd, cancelFault);
      && p.cancels == 1
      && p.end == PollFailed(if cancelFault.None? then TimeoutFailure(endpoint) else Wrap(endpoint, cancelFault.value))
  {
    if i > 0 {
      assert StillWaiting(events[0], start, timeout);
      assert forall k :: 0 <= k < i - 1 ==> events[1..][k] == events[k + 1];
      LateEventCancelsOnce(endpoint, timeout, start, events[1..], streamEnd, cancelFault, i - 1);
    }
  }

  /**
   * A stream that ends while every event was still in time leads to the
   * fetch (or to the stream's own error): the deadline is only checked when
   * an event arrives, and nothing is cancelled.
   */
  lemma {:induction false} QuietStreamFetches(endpoint: string, timeout: real, start: real, events: seq<Event>,
                                              streamEnd: StreamEnd, cancelFault: Option<Fault>)
    requires forall k :: 0 <= k < |events| ==> StillWaiting(events[k], start, timeout)
    ensures var p := Poll(endpoint, timeout, start, events, streamEnd, cancelFault);
      && p.cancels == 0
      && p.end == (if streamEnd.Exhausted? then ReadyToFetch else PollFailed(Wrap(endpoint, streamEnd.fault)))
  {
    if events != [] {
      assert StillWaiting(events[0], start, timeout);
      assert forall k :: 0 <= k < |events| - 1 ==> events[1..][k] == events[k + 1];
      QuietStreamFetches(endpoint, timeout, start, events[1..], streamEnd, cancelFault);
    }
  }

  /** A cancel happens exactly when some event is seen late before any `Completed` event. */
  lemma {:induction false} CancelIffLate(endpoint: string, timeout: real, start: real, events: seq<Event>,
                                         streamEnd: StreamEnd, cancelFault: Option<Fault>)
    ensures Poll(endpoint, timeout, start, events, streamEnd, cancelFault).cancels == 1 <==>
      exists i :: 0 <= i < |events| && events[i].status != Completed && events[i].at - start > timeout
        && forall k :: 0 <= k < i ==> StillWaiting(events[k], start, timeout)
    decreases |events|
  {
    if events != [] {
      var tail := events[1..];
      CancelIffLate(endpoint, timeout, start, tail, streamEnd, cancelFault);
      assert forall k :: 0 <= k < |tail| ==> tail[k] == events[k + 1];
      if StillWaiting(events[0], start, timeout) {
        if Poll(endpoint, timeout, start, tail, streamEnd, cancelFault).cancels == 1 {
          var j :| 0 <= j < |tail| && tail[j].status != Completed && tail[j].at - start > timeout
            && forall k :: 0 <= k < j ==> StillWaiting(tail[k], start, timeout);
          assert forall k :: 0 <= k < j + 1 ==> StillWaiting(events[k], start, timeout);
        }
        if exists i :: 0 <= i < |events| && events[i].status != Completed && events[i].at - start > timeout
             && forall k :: 0 <= k < i ==> StillWaiting(events[k], start, timeout)
        {
          var i :| 0 <= i < |events| && events[i].status != Completed && events[i].at - start > timeout
            && forall k :: 0 <= k < i ==> StillWaiting(events[k], start, timeout);
          assert i > 0;
          assert forall k :: 0 <= k < i - 1 ==> StillWaiting(tail[k], start, timeout);
        }
      }
    }
  }

  // ---------------------------------------------------------------------
  // Rejecting failed payloads

  datatype ErrorCheck = NoError | Detail(text: string) | Unhashable(typeName: string)

  /**
   * A truthy `error` field, or a `status` of FAILED or ERROR. Testing a list
   * or dict `status` against the set of failure names raises TypeError.
   */
  function ExtractResultError(result: Json): (c: ErrorCheck)
    ensures !result.JObj? ==> c == NoError
    ensures result.JObj? && Truthy(GetOrNull(result, "error")) ==> c == Detail(Show(GetOrNull(result, "error")))
  {
    if !result.JObj? then NoError
    else if Truthy(GetOrNull(result, "error")) then Detail(Show(GetOrNull(result, "error")))
    else
      var status := GetOrNull(result, "status");
      if status.JList? then Unhashable("list")
      else if status.JObj? then Unhashable("dict")
      else if status == JStr("FAILED") || status == JStr("ERROR") then
        var message := GetOrNull(result, "message");
        Detail(Show(if Truthy(message) then message else result))
      else NoError
  }

  lemma {:induction false} ReprNonEmpty(j: Json)
    ensures Repr(j) != ""
  {
    match j
    case JNum(n) =>
      if n == n.Floor as real {
        var m := n.Floor;
        if m < 0 {
          assert IntToDecimal(m) == "-" + NatToDecimal(-m);
        } else {
          assert |NatToDecimal(m)| > 0;
        }
      }
    case _ =>
  }

  /** `str()` of a truthy value is never empty. */
  lemma ShowTruthyNonEmpty(j: Json)
    requires Truthy(j) || j.JObj?
    ensures Show(j) != ""
  {
    if !j.JStr? {
      ReprNonEmpty(j);
    }
  }

  /** The post-fetch check: raise FalAPIError with the detail, or hand the payload back untouched. */
  function CheckResult(endpoint: string, result: Json): Result<Json, Failure> {
    match ExtractResultError(result)
    case NoError => Ok(result)
    case Unhashable(typeName) => Err(Raised("unhashable type: '" + typeName + "'"))
    case Detail(text) => if text != "" then Err(FalApiError(endpoint, text)) else Ok(result)
  }

  predicate ReportsFailure(result: Json) {
    && result.JObj?
    && (|| Truthy(GetOrNull(result, "error"))
        || GetOrNull(result, "status") == JStr("FAILED")
        || GetOrNull(result, "status") == JStr("ERROR"))
  }

  /**
   * A payload is rejected with a FalAPIError exactly when it reports a
   * failure; the message is the `error` value, else the `message` value,
   * else the whole payload. A list or dict `status` raises instead.
   * Anything else is returned unchanged.
   */
  lemma CheckResultSpec(endpoint: string, result: Json)
    ensures var c := CheckResult(endpoint, result);
      && (c.Err? && c.error.FalApiError? <==> ReportsFailure(result))
      && (c.Err? && c.error.Raised? <==>
            result.JObj? && !ReportsFailure(result)
            && (GetOrNull(result, "status").JList? || GetOrNull(result, "status").JObj?))
      && (c.Ok? ==> c.value == result)
      && (c.Err? && c.error.FalApiError? ==> c.error.endpoint == endpoint)
      && (result.JObj? && Truthy(GetOrNull(result, "error")) ==>
            c == Err(FalApiError(endpoint, Show(GetOrNull(result, "error")))))
      && (ReportsFailure(result) && !Truthy(GetOrNull(result, "error")) ==>
            var m := GetOrNull(result, "message");
            c == Err(FalApiError(endpoint, Show(if Truthy(m) then m else result))))
  {
    if result.JObj? {
      var e := GetOrNull(result, "error");
      var m := GetOrNull(result, "message");
      if Truthy(e) {
        ShowTruthyNonEmpty(e);
      } else if Truthy(m) {
        ShowTruthyNonEmpty(m);
      } else {
        ShowTruthyNonEmpty(result);
      }
    }
  }

  // ---------------------------------------------------------------------
  // Submit and wait

  /** The outcome of one job, with the side effects worth counting. */
  datatype JobRun = JobRun(result: Result<Json, Failure>, submitted: bool, cancels: nat, fetched: bool)

  function SubmitAndGetResult(endpoint: string, env: Env): (run: JobRun)
    ensures !FalConfig.HasKey(env.config) ==> run == JobRun(Err(Raised(FalConfig.NotConfiguredMessage)), false, 0, false)
    ensures run.result.Ok? ==> run.fetched && env.remote.fetched == Ok(run.result.value)
    ensures run.cancels <= 1
    ensures run.fetched ==> run.submitted && run.cancels == 0
    ensures run.result.Err? && run.result.error.Raised? ==>
      !FalConfig.HasKey(env.config) || env.remote.submitFault.Some? || run.fetched
  {
    var r := env.remote;
    if !FalConfig.HasKey(env.config) then
      JobRun(Err(Raised(FalConfig.NotConfiguredMessage)), false, 0, false)
    else if r.submitFault.Some? then
      // submission happens before the `try`, so its error is not wrapped
      JobRun(Err(Raised(r.submitFault.value.text)), false, 0, false)
    else
      var p := Poll(endpoint, env.timeout, r.start, r.events, r.streamEnd, r.cancelFault);
      match p.end
      case PollFailed(e) => JobRun(Err(e), true, p.cancels, false)
      case ReadyToFetch =>
        match r.fetched
        case Err(f) => JobRun(Err(Wrap(endpoint, f)), true, 0, true)
        case Ok(result) => JobRun(CheckResult(endpoint, result), true, 0, true)
  }

  /**
   * With a key and an accepted submission, a job that sees a pending event
   * past the deadline before completing is cancelled once and fails with
   * "<endpoint>: Request timed out while waiting for completion".
   */
  lemma JobTimesOut(endpoint: string, env: Env, i: nat)
    requires FalConfig.HasKey(env.config) && env.remote.submitFault.None? && env.remote.cancelFault.None?
    requires var r := env.remote;
      && i < |r.events| && r.events[i].status != Completed && r.events[i].at - r.start > env.timeout
      && forall k :: 0 <= k < i ==> StillWaiting(r.events[k], r.start, env.timeout)
    ensures var run := SubmitAndGetResult(endpoint, env);
      && run.cancels == 1 && !run.fetched
      && run.result == Err(FalApiError(endpoint, endpoint + ": " + TimeoutMessage))
  {
    var r := env.remote;
    LateEventCancelsOnce(endpoint, env.timeout, r.start, r.events, r.streamEnd, r.cancelFault, i);
  }

  /**
   * With a key and an accepted submission, a job succeeds exactly when
   * polling reaches the fetch, the fetch returns a payload, and that payload
   * neither reports a failure nor has a list or dict `status`; the result is
   * then the fetched payload itself.
   */
  lemma JobSucceedsIff(endpoint: string, env: Env)
    requires FalConfig.HasKey(env.config) && env.remote.submitFault.None?
    ensures var r := env.remote;
      var run := SubmitAndGetResult(endpoint, env);
      run.result.Ok? <==>
        && Poll(endpoint, env.timeout, r.start, r.events, r.streamEnd, r.cancelFault).end == ReadyToFetch
        && r.fetched.Ok? && !ReportsFailure(r.fetched.value)
        && !(r.fetched.value.JObj?
             && (GetOrNull(r.fetched.value, "status").JList? || GetOrNull(r.fetched.value, "status").JObj?))
    ensures SubmitAndGetResult(endpoint, env).result.Ok? ==>
      SubmitAndGetResult(endpoint, env) == JobRun(Ok(env.remote.fetched.value), true, 0, true)
  {
    var r := env.remote;
    if r.fetched.Ok? {
      CheckResultSpec(endpoint, r.fetched.value);
    }
  }

  // ---------------------------------------------------------------------
  // Video URLs

  /** Rule 1: a `video` dict's `url`, stringified. */
  function VideoDictRule(result: Json): Option<string> {
    var video := GetOrNull(result, "video");
    if Has(video, "url") then Some(Show(video.fields["url"])) else None
  }

  /** A list item that names a video: a dict with `url`, or a string. */
  predicate IsVideoEntry(item: Json) {
    Has(item, "url") || item.JStr?
  }

  /** The URL a video entry names: the dict's `url` stringified, or the string itself. */
  function VideoEntryUrl(item: Json): string
    requires IsVideoEntry(item)
  {
    if Has(item, "url") then Show(item.fields["url"]) else item.s
  }

  /** Rule 2: the first element of a non-empty `video` list, if it is a dict with `url` or a string. */
  function VideoListRule(result: Json): Option<string> {
    var video := GetOrNull(result, "video");
    if video.JList? && |video.items| > 0 && IsVideoEntry(video.items[0]) then Some(VideoEntryUrl(video.items[0]))
    else None
  }

  /** The URL of the first list item that is a dict with `url` or a string. */
  function FirstVideoEntry(items: seq<Json>): (r: Option<string>)
    ensures r.Some? <==> exists k :: 0 <= k < |items| && IsVideoEntry(items[k])
    ensures r.Some? ==>
      exists k :: 0 <= k < |items| && IsVideoEntry(items[k])
        && (forall j :: 0 <= j < k ==> !IsVideoEntry(items[j])) && r.value == VideoEntryUrl(items[k])
  {
    if items == [] then None
    else if IsVideoEntry(items[0]) then Some(VideoEntryUrl(items[0]))
    else
      var r := FirstVideoEntry(items[1..]);
      assert forall k :: 1 <= k < |items| ==> items[k] == items[1..][k - 1];
      r
  }

  /** Rule 3: `output` as a dict with `url`, or a list; a bare string is not accepted here. */
  function VideoOutputRule(result: Json): Option<string> {
    if !Has(result, "output") then None
    else
      var output := result.fields["output"];
      if Has(output, "url") then Some(Show(output.fields["url"]))
      else if output.JList? then FirstVideoEntry(output.items)
      else None
  }

  /** Rule 4: a string top-level `url`. */
  function TopUrlRule(result: Json): Option<string> {
    if Has(result, "url") && result.fields["url"].JStr? then Some(result.fields["url"].s) else None
  }

  function ExtractVideoUrl(result: Json): Option<string> {
    if !result.JObj? then None
    else if VideoDictRule(result).Some? then VideoDictRule(result)
    else if VideoListRule(result).Some? then VideoListRule(result)
    else if VideoOutputRule(result).Some? then VideoOutputRule(result)
    else TopUrlRule(result)
  }

  /** Apply rules in order; the first one that matches decides. */
  function FirstMatch(rules: seq<Json -> Option<string>>, x: Json): (r: Option<string>)
    ensures r.None? <==> forall i :: 0 <= i < |rules| ==> rules[i](x).None?
    ensures r.Some? ==> exists i :: 0 <= i < |rules| && rules[i](x) == r && forall k :: 0 <= k < i ==> rules[k](x).None?
  {
    if rules == [] then None
    else if rules[0](x).Some? then rules[0](x)
    else
      var r := FirstMatch(rules[1..], x);
      assert forall k :: 1 <= k < |rules| ==> rules[k] == rules[1..][k - 1];
      r
  }

  function VideoRules(): seq<Json -> Option<string>> {
    [VideoDictRule, VideoListRule, VideoOutputRule, TopUrlRule]
  }

  /** The extractor is exactly the ordered rule list, first match winning. */
  lemma ExtractVideoUrlIsFirstMatch(result: Json)
    requires result.JObj?
    ensures ExtractVideoUrl(result) == FirstMatch(VideoRules(), result)
  {
    var rules := VideoRules();
    var r1 := [VideoListRule, VideoOutputRule, TopUrlRule];
    var r2 := [VideoOutputRule, TopUrlRule];
    var r3 := [TopUrlRule];
    assert rules[0] == VideoDictRule && rules[1..] == r1;
    assert r1[0] == VideoListRule && r1[1..] == r2;
    assert r2[0] == VideoOutputRule && r2[1..] == r3;
    assert r3[0] == TopUrlRule && r3[1..] == [];
    assert FirstMatch(r3, result) == TopUrlRule(result);
  }

  /** A bare string under `output` never becomes the video URL. */
  lemma StringOutputIsNoVideo(s: string)
    ensures ExtractVideoUrl(JObj(map["output" := JStr(s)])) == None
  {
  }

  // ---------------------------------------------------------------------
  // Node-facing runners and fallbacks

  function VideoErrorText(message: string): string {
    "Error: Unable to generate video. Details: " + message
  }

  function TextErrorText(message: string): string {
    "Error: Unable to generate text. Details: " + message
  }

  /** Images from the payload, or the placeholder on any failure. */
  function RunImageJob(model: string, endpoint: string, args: map<string, Json>, env: Env): (out: ImageOutput)
    ensures SubmitAndGetResult(endpoint, env).result.Err? ==> out == BlankImage()
    ensures SubmitAndGetResult(endpoint, env).result.Ok? ==>
      out == ProcessImageResult(SubmitAndGetResult(endpoint, env).result.value, env.fetch)
    ensures out.Batch? ==> |out.urls| > 0
  {
    var run := SubmitAndGetResult(endpoint, env);
    match run.result
    case Err(_) => BlankImage()
    case Ok(result) => ProcessImageResult(result, env.fetch)
  }

  /** The video URL, or "Error: Unable to generate video. Details: <message>". */
  function RunVideoJob(model: string, endpoint: string, args: map<string, Json>, env: Env): (out: string)
    ensures var run := SubmitAndGetResult(endpoint, env);
      && (run.result.Err? ==> out == VideoErrorText(Message(run.result.error)))
      && (run.result.Ok? && ExtractVideoUrl(run.result.value).Some? ==> out == ExtractVideoUrl(run.result.value).value)
      && (run.result.Ok? && ExtractVideoUrl(run.result.value).None? ==> out == VideoErrorText(NoVideoUrlMessage))
  {
    var run := SubmitAndGetResult(endpoint, env);
    match run.result
    case Err(e) => VideoErrorText(Message(e))
    case Ok(result) =>
      match ExtractVideoUrl(result)
      case Some(url) => url
      case None => VideoErrorText(NoVideoUrlMessage)
  }

  /** The text under `output`: a string verbatim, a list joined by newlines and stripped. */
  function TextOf(result: Json): (t: Option<string>)
    ensures t.Some? <==> result.JObj? && (GetOrNull(result, "output").JStr? || GetOrNull(result, "output").JList?)
    ensures t.Some? && GetOrNull(result, "output").JStr? ==> t.value == GetOrNull(result, "output").s
    ensures t.Some? && GetOrNull(result, "output").JList? ==>
      t.value == Strip(Join("\n", ShowEach(GetOrNull(result, "output").items)))
    ensures t.Some? && GetOrNull(result, "output").JList? ==>
      t.value == [] || (!IsSpace(t.value[0]) && !IsSpace(t.value[|t.value| - 1]))
  {
    var output := if result.JObj? then GetOrNull(result, "output") else JNull;
    match output
    case JStr(s) => Some(s)
    case JList(items) => Some(Strip(Join("\n", ShowEach(items))))
    case _ => None
  }

  /**
   * A list `output` whose joined text has no whitespace to strip reads as
   * each item's `str()` in order, a newline after each but the last.
   */
  lemma TextOfListLayout(result: Json)
    requires result.JObj? && GetOrNull(result, "output").JList? && |GetOrNull(result, "output").items| > 0
    requires var j := Join("\n", ShowEach(GetOrNull(result, "output").items));
      j == [] || (!IsSpace(j[0]) && !IsSpace(j[|j| - 1]))
    ensures TextOf(result).Some?
    ensures var t, parts := TextOf(result).value, ShowEach(GetOrNull(result, "output").items);
      && |t| == JoinOffset("\n", parts, |parts| - 1) + |parts[|parts| - 1]|
      && PartsInPlace("\n", parts, t) && SeparatorsInPlace("\n", parts, t)
  {
    var parts := ShowEach(GetOrNull(result, "output").items);
    var j := Join("\n", parts);
    assert TextOf(result).value == Strip(j);
    assert Strip(j) == j by {
      StripLeftOfClean(j);
      StripRightOfClean(j);
    }
    JoinLayout("\n", parts);
  }

  function RunTextJob(model: string, endpoint: string, args: map<string, Json>, env: Env): (out: string)
    ensures var run := SubmitAndGetResult(endpoint, env);
      && (run.result.Err? ==> out == TextErrorText(Message(run.result.error)))
      && (run.result.Ok? && TextOf(run.result.value).Some? ==> out == TextOf(run.result.value).value)
      && (run.result.Ok? && TextOf(run.result.value).None? ==> out == TextErrorText(NoTextMessage))
  {
    var run := SubmitAndGetResult(endpoint, env);
    match run.result
    case Err(e) => TextErrorText(Message(e))
    case Ok(result) =>
      match TextOf(result)
      case Some(t) => t
      case None => TextErrorText(NoTextMessage)
  }

  /** `{"output": ["a", "b", "c"]}` reads as "a\nb\nc". */
  lemma TextJoinExample()
    ensures TextOf(JObj(map["output" := JList([JStr("a"), JStr("b"), JStr("c")])])) == Some("a\nb\nc")
  {
    var items := [JStr("a"), JStr("b"), JStr("c")];
    var parts := ShowEach(items);
    assert parts == ["a", "b", "c"];
    assert Join("\n", parts) == "a\nb\nc";
    StripLeftOfClean("a\nb\nc");
    StripRightOfClean("a\nb\nc");
  }

  /** A video job that times out reports the doubly prefixed timeout message. */
  lemma VideoJobTimeoutText(model: string, endpoint: string, args: map<string, Json>, env: Env, i: nat)
    requires FalConfig.HasKey(env.config) && env.remote.submitFault.None? && env.remote.cancelFault.None?
    requires var r := env.remote;
      && i < |r.events| && r.events[i].status != Completed && r.events[i].at - r.start > env.timeout
      && forall k :: 0 <= k < i ==> StillWaiting(r.events[k], r.start, env.timeout)
    ensures RunVideoJob(model, endpoint, args, env)
      == "Error: Unable to generate video. Details: " + endpoint + ": " + TimeoutMessage
  {
    JobTimesOut(endpoint, env, i);
    TimeoutMessageText(endpoint);
    var details := "Error: Unable to generate video. Details: ";
    assert VideoErrorText(endpoint + ": " + TimeoutMessage) == details + (endpoint + ": " + TimeoutMessage);
    assert details + (endpoint + ": " + TimeoutMessage) == details + endpoint + ": " + TimeoutMessage;
  }

  // ---------------------------------------------------------------------
  // What a node decides before any job runs

  /** A request for the job runner: the model label for diagnostics, the endpoint and the body. */
  datatype Request = Request(model: string, endpoint: string, args: map<string, Json>)

  /** An image node either submits one request or gives up with the placeholder. */
  datatype ImagePlan = SubmitImage(req: Request) | BlankWithoutJob

  /** A video node either submits one request or gives up with an error message. */
  datatype VideoPlan = SubmitVideo(req: Request) | RefuseVideo(message: string)

  function RunImagePlan(plan: ImagePlan, env: Env): (out: ImageOutput)
    ensures plan.BlankWithoutJob? ==> out == BlankImage()
    ensures plan.SubmitImage? ==> out == RunImageJob(plan.req.model, plan.req.endpoint, plan.req.args, env)
  {
    match plan
    case BlankWithoutJob => BlankImage()
    case SubmitImage(req) => RunImageJob(req.model, req.endpoint, req.args, env)
  }

  function RunVideoPlan(plan: VideoPlan, env: Env): (out: string)
    ensures plan.RefuseVideo? ==> out == VideoErrorText(plan.message)
    ensures plan.SubmitVideo? ==> out == RunVideoJob(plan.req.model, plan.req.endpoint, plan.req.args, env)
  {
    match plan
    case RefuseVideo(message) => VideoErrorText(message)
    case SubmitVideo(req) => RunVideoJob(req.model, req.endpoint, req.args, env)
  }
}

=== FILE: combined.dfy ===
/**
 * The combined video node: one uploaded picture fanned out to six providers,
 * each polled until it names a video or fails, and the answers written back
 * into six fixed output slots. The concurrency is not modelled: each
 * provider's run is the remote's answer to the request it submits (the
 * sequence of replies its polling would see), and the gathered answers are
 * placed by position among the enabled providers.
 */
module Combined {
  import opened Values
  import opened ImageUtils
  import Kling
  import Luma

  const ServiceDisabled: string := "Service disabled"
  const UploadFailedText: string := "Error: Unable to upload image."
  const AggregateFailedText: string := "Error: Unable to generate videos."
  const SlotCount: nat := 6

  datatype Provider = Provider(name: string, endpoint: string)

  /** The six providers in output-slot order. */
  const Providers: seq<Provider> := [
    Provider("KlingPro", "fal-ai/kling-video/v1.6/pro/image-to-video"),
    Provider("KlingMaster", "fal-ai/kling-video/v2/master/image-to-video"),
    Provider("MiniMax", "fal-ai/minimax/video-01-live/image-to-video"),
    Provider("Luma", "fal-ai/luma-dream-machine/ray-2/image-to-video"),
    Provider("Veo2", "fal-ai/veo2/image-to-video"),
    Provider("Wan Pro", "fal-ai/wan-pro/image-to-video")
  ]

  /** The text a provider's slot holds when anything in its run raised. */
  function ProviderError(p: Provider): string {
    "Error: Unable to generate " + p.name + " video."
  }

  datatype Inputs = Inputs(
    prompt: string,
    klingDuration: string,
    klingLumaAspectRatio: string,
    lumaLoop: bool,
    veo2AspectRatio: string,
    veo2Duration: string,
    enableKlingPro: bool,
    enableKlingMaster: bool,
    enableMiniMax: bool,
    enableLuma: bool,
    enableVeo2: bool,
    enableWanPro: bool)

  function Enabled(x: Inputs): (flags: seq<bool>)
    ensures |flags| == SlotCount
  {
    [x.enableKlingPro, x.enableKlingMaster, x.enableMiniMax, x.enableLuma, x.enableVeo2, x.enableWanPro]
  }

  /** The body each provider is submitted with; `k` is its slot. */
  function ProviderArgs(k: nat, x: Inputs, imageUrl: string): (a: map<string, Json>)
    requires k < SlotCount
    ensures "prompt" in a && a["prompt"] == JStr(x.prompt)
    ensures "image_url" in a && a["image_url"] == JStr(imageUrl)
    ensures a.Keys == {"prompt", "image_url"}
      + (if k <= 1 || k == 4 then {"duration", "aspect_ratio"} else {})
      + (if k == 3 then {"aspect_ratio", "loop"} else {})
      + (if k == 5 then {"enable_safety_checker", "seed"} else {})
    ensures k <= 1 ==> a["duration"] == JStr(x.klingDuration) && a["aspect_ratio"] == JStr(x.klingLumaAspectRatio)
    ensures k == 4 ==> a["duration"] == JStr(x.veo2Duration) && a["aspect_ratio"] == JStr(x.veo2AspectRatio)
    ensures k == 3 ==> a["aspect_ratio"] == JStr(x.klingLumaAspectRatio) && a["loop"] == JBool(x.lumaLoop)
    ensures k == 5 ==> a["enable_safety_checker"] == JBool(true) && a["seed"] == JNull
  {
    var base := map["prompt" := JStr(x.prompt), "image_url" := JStr(imageUrl)];
    if k <= 1 then base["duration" := JStr(x.klingDuration)]["aspect_ratio" := JStr(x.klingLumaAspectRatio)]
    else if k == 2 then base
    else if k == 3 then base["aspect_ratio" := JStr(x.klingLumaAspectRatio)]["loop" := JBool(x.lumaLoop)]
    else if k == 4 then base["aspect_ratio" := JStr(x.veo2AspectRatio)]["duration" := JStr(x.veo2Duration)]
    else base["enable_safety_checker" := JBool(true)]["seed" := JNull]
  }

  // ---------------------------------------------------------------------
  // Polling one provider

  /** `s` occurs in `t` as a contiguous piece (Python's `s in t` on strings). */
  predicate Contains(t: string, s: string) {
    exists i :: 0 <= i <= |t| - |s| && OccursAt(t, s, i)
  }

  predicate OccursAt(t: string, s: string, i: int) {
    0 <= i <= |t| - |s| && t[i..i + |s|] == s
  }

  /** What one reply of `handler.get()` makes the polling loop do. */
  datatype Step = Found(url: Json) | Raise | KeepPolling

  /** `"url" in video` evaluates without raising, and is false. */
  predicate LacksUrl(video: Json) {
    match video
    case JObj(f) => "url" !in f
    case JList(items) => JStr("url") !in items
    case JStr(t) => !Contains(t, "url")
    case _ => false
  }

  /**
   * One reply: `"video" in result and "url" in result["video"]` returns the
   * URL; any shape on which those tests or the indexing raise ends the run
   * with the provider's error; a status of "FAILED" raises too.
   */
  function Examine(result: Json): (s: Step)
    ensures s.Found? <==>
      result.JObj? && "video" in result.fields && result.fields["video"].JObj? && "url" in result.fields["video"].fields
    ensures s.Found? ==> s.url == result.fields["video"].fields["url"]
    ensures s == KeepPolling <==>
      && result.JObj? && GetOrNull(result, "status") != JStr("FAILED")
      && ("video" in result.fields ==> LacksUrl(result.fields["video"]))
    ensures !result.JObj? ==> s == Raise
  {
    if !result.JObj? then Raise
    else
      var statusCheck := if GetOrNull(result, "status") == JStr("FAILED") then Raise else KeepPolling;
      if "video" !in result.fields then statusCheck
      else match result.fields["video"]
        case JObj(f) => if "url" in f then Found(f["url"]) else statusCheck
        case JList(items) => if JStr("url") in items then Raise else statusCheck
        case JStr(t) => if Contains(t, "url") then Raise else statusCheck
        case _ => Raise
  }

  datatype Reply = Got(result: Json) | GetRaised

  /** A provider's run: whether `submit` raised, and the replies polling sees. */
  datatype Run = Run(submitRaises: bool, replies: seq<Reply>)

  function StepOf(r: Reply): Step {
    match r
    case GetRaised => Raise
    case Got(result) => Examine(result)
  }

  /**
   * The polling loop over the replies. None when the replies run out while
   * the loop would still be waiting.
   */
  function Poll(p: Provider, replies: seq<Reply>): (r: Option<Json>)
    ensures r.Some? <==> exists i :: 0 <= i < |replies| && StepOf(replies[i]) != KeepPolling
    ensures r.Some? ==>
      exists i :: 0 <= i < |replies|
        && (forall k :: 0 <= k < i ==> StepOf(replies[k]) == KeepPolling)
        && match StepOf(replies[i])
           case Found(u) => r.value == u
           case Raise => r.value == JStr(ProviderError(p))
           case KeepPolling => false
  {
    if replies == [] then None
    else
      assert forall i :: 1 <= i < |replies| ==> replies[i] == replies[1..][i - 1];
      match StepOf(replies[0])
      case Found(u) => Some(u)
      case Raise => Some(JStr(ProviderError(p)))
      case KeepPolling => Poll(p, replies[1..])
  }

  function RunProvider(p: Provider, run: Run): (r: Option<Json>)
    ensures run.submitRaises ==> r == Some(JStr(ProviderError(p)))
    ensures !run.submitRaises ==> r == Poll(p, run.replies)
  {
    if run.submitRaises then Some(JStr(ProviderError(p))) else Poll(p, run.replies)
  }

  // ---------------------------------------------------------------------
  // Placing the answers

  /** How many of the flags are set; counted from the back so prefixes extend by one. */
  function CountEnabled(flags: seq<bool>): (n: nat)
    ensures n <= |flags|
  {
    if flags == [] then 0
    else CountEnabled(flags[..|flags| - 1]) + (if flags[|flags| - 1] then 1 else 0)
  }

  lemma {:induction false} CountPrefixBound(flags: seq<bool>, i: nat)
    requires i <= |flags|
    ensures CountEnabled(flags[..i]) <= CountEnabled(flags)
    ensures i < |flags| && flags[i] ==> CountEnabled(flags[..i]) < CountEnabled(flags)
    decreases |flags|
  {
    if i < |flags| {
      var init := flags[..|flags| - 1];
      assert init[..i] == flags[..i];
      if i < |init| {
        CountPrefixBound(init, i);
      } else {
        assert init == flags[..i];
      }
    } else {
      assert flags[..i] == flags;
    }
  }

  lemma {:induction false} NoneEnabledCountsZero(flags: seq<bool>)
    requires forall i :: 0 <= i < |flags| ==> !flags[i]
    ensures CountEnabled(flags) == 0
    decreases |flags|
  {
    if flags != [] {
      NoneEnabledCountsZero(flags[..|flags| - 1]);
    }
  }

  /**
   * The answers of the enabled providers in slot order; None when one of
   * them is still polling (the gather never completes).
   */
  function Gather(flags: seq<bool>, outcomes: seq<Option<Json>>): (r: Option<seq<Json>>)
    requires |outcomes| == |flags|
    ensures r.Some? <==> forall i :: 0 <= i < |flags| && flags[i] ==> outcomes[i].Some?
    ensures r.Some? ==> |r.value| == CountEnabled(flags)
    ensures r.Some? ==> forall i :: 0 <= i < |flags| && flags[i] ==>
      CountEnabled(flags[..i]) < |r.value| && outcomes[i] == Some(r.value[CountEnabled(flags[..i])])
    decreases |flags|
  {
    if flags == [] then Some([])
    else
      var n := |flags| - 1;
      var init := flags[..n];
      assert forall i :: 0 <= i < n ==> init[..i] == flags[..i];
      var rest := Gather(init, outcomes[..n]);
      if rest.None? then None
      else if !flags[n] then Some(rest.value)
      else if outcomes[n].None? then None
      else
        assert flags[..n] == init;
        Some(rest.value + [outcomes[n].value])
  }

  /** Enabled slots take their gathered answer by rank, the others say the service is disabled. */
  function Assign(flags: seq<bool>, gathered: seq<Json>): (slots: seq<Json>)
    requires |gathered| == CountEnabled(flags)
    ensures |slots| == |flags|
    ensures forall i :: 0 <= i < |flags| ==>
      if flags[i] then CountEnabled(flags[..i]) < |gathered| && slots[i] == gathered[CountEnabled(flags[..i])]
      else slots[i] == JStr(ServiceDisabled)
    decreases |flags|
  {
    if flags == [] then []
    else
      var n := |flags| - 1;
      var init := flags[..n];
      assert forall i :: 0 <= i < n ==> init[..i] == flags[..i];
      var used := CountEnabled(init);
      var head := Assign(init, gathered[..used]);
      assert flags[..n] == init;
      head + [if flags[n] then gathered[used] else JStr(ServiceDisabled)]
  }

  /**
   * The six slots: all still None when nothing is enabled, else each slot's
   * gathered answer or "Service disabled".
   */
  function Slots(flags: seq<bool>, gathered: seq<Json>): (slots: seq<Json>)
    requires |gathered| == CountEnabled(flags)
    ensures |slots| == |flags|
    ensures CountEnabled(flags) == 0 ==> forall i :: 0 <= i < |slots| ==> slots[i] == JNull
    ensures CountEnabled(flags) > 0 ==> slots == Assign(flags, gathered)
  {
    if CountEnabled(flags) == 0 then seq(|flags|, _ => JNull) else Assign(flags, gathered)
  }

  /**
   * The slot-mapping loop of the node: start from six Nones and, when any task ran,
   * walk the slots with a running index into the gathered answers.
   */
  method MapSlots(flags: seq<bool>, gathered: seq<Json>) returns (slots: seq<Json>)
    requires |gathered| == CountEnabled(flags)
    ensures slots == Slots(flags, gathered)
  {
    slots := seq(|flags|, _ => JNull);
    if |gathered| > 0 {
      var idx := 0;
      var i := 0;
      while i < |flags|
        invariant 0 <= i <= |flags| && |slots| == |flags|
        invariant idx == CountEnabled(flags[..i])
        invariant forall k :: 0 <= k < i ==>
          if flags[k] then CountEnabled(flags[..k]) < |gathered| && slots[k] == gathered[CountEnabled(flags[..k])]
          else slots[k] == JStr(ServiceDisabled)
      {
        assert flags[..i + 1][..i] == flags[..i];
        CountPrefixBound(flags, i);
        if flags[i] {
          slots := slots[i := gathered[idx]];
          idx := idx + 1;
        } else {
          slots := slots[i := JStr(ServiceDisabled)];
        }
        i := i + 1;
      }
      assert forall k :: 0 <= k < |flags| ==> slots[k] == Assign(flags, gathered)[k];
    }
  }

  // ---------------------------------------------------------------------
  // The node

  /**
   * The remote as seen by the node: whether the aggregate step raised, and
   * the run a provider's job takes for the endpoint and body it is submitted
   * with.
   */
  datatype Remote = Remote(aggregateRaises: bool, respond: (string, map<string, Json>) -> Run)

  /** The run of the provider in slot `k`: the remote's answer to that provider's request. */
  function RunOf(x: Inputs, imageUrl: string, remote: Remote, k: nat): Run
    requires k < SlotCount
  {
    remote.respond(Providers[k].endpoint, ProviderArgs(k, x, imageUrl))
  }

  function Outcomes(x: Inputs, imageUrl: string, remote: Remote): (o: seq<Option<Json>>)
    ensures |o| == SlotCount
    ensures forall k :: 0 <= k < SlotCount ==> o[k] == RunProvider(Providers[k], RunOf(x, imageUrl, remote, k))
  {
    seq(SlotCount, k requires 0 <= k < SlotCount => RunProvider(Providers[k], RunOf(x, imageUrl, remote, k)))
  }

  function Repeat(s: string): (slots: seq<Json>)
    ensures |slots| == SlotCount && forall i :: 0 <= i < SlotCount ==> slots[i] == JStr(s)
  {
    seq(SlotCount, _ => JStr(s))
  }

  /**
   * `generate_all_videos`: it answers exactly when every enabled provider's
   * run ends (None while one is still polling); a failure of the aggregate
   * step replaces all six slots.
   */
  function GenerateAllVideos(x: Inputs, imageUrl: string, remote: Remote): (r: Option<seq<Json>>)
    ensures r.Some? ==> |r.value| == SlotCount
    ensures remote.aggregateRaises ==> r == Some(Repeat(AggregateFailedText))
    ensures !remote.aggregateRaises ==>
      (r.Some? <==> forall k :: 0 <= k < SlotCount && Enabled(x)[k] ==>
         RunProvider(Providers[k], RunOf(x, imageUrl, remote, k)).Some?)
  {
    if remote.aggregateRaises then Some(Repeat(AggregateFailedText))
    else
      var flags := Enabled(x);
      match Gather(flags, Outcomes(x, imageUrl, remote))
      case None => None
      case Some(gathered) => Some(Slots(flags, gathered))
  }

  /**
   * `generate_videos`: a failed upload answers every slot with the upload
   * error before anything is submitted; otherwise every provider is sent
   * the uploaded URL.
   */
  function GenerateVideos(x: Inputs, image: ImageRef, up: ImageRef -> Option<string>, remote: Remote)
    : (r: Option<seq<Json>>)
    ensures Upload(up, image).None? ==> r == Some(Repeat(UploadFailedText))
    ensures Upload(up, image).Some? ==> r == GenerateAllVideos(x, Upload(up, image).value, remote)
  {
    match Upload(up, image)
    case None => Some(Repeat(UploadFailedText))
    case Some(url) => GenerateAllVideos(x, url, remote)
  }

  // ---------------------------------------------------------------------
  // Properties of the node

  /**
   * With at least one provider enabled and every enabled run finished, an
   * enabled slot holds that provider's own answer and a disabled slot says so.
   */
  lemma SlotsHoldOwnAnswers(x: Inputs, imageUrl: string, remote: Remote, k: nat)
    requires !remote.aggregateRaises && k < SlotCount
    requires CountEnabled(Enabled(x)) > 0
    requires GenerateAllVideos(x, imageUrl, remote).Some?
    ensures Enabled(x)[k] ==>
      RunProvider(Providers[k], RunOf(x, imageUrl, remote, k)) == Some(GenerateAllVideos(x, imageUrl, remote).value[k])
    ensures !Enabled(x)[k] ==> GenerateAllVideos(x, imageUrl, remote).value[k] == JStr(ServiceDisabled)
  {
    var flags := Enabled(x);
    var g := Gather(flags, Outcomes(x, imageUrl, remote)).value;
    assert GenerateAllVideos(x, imageUrl, remote).value == Assign(flags, g);
  }

  /** Nothing enabled: the six slots stay None, and "Service disabled" is never written. */
  lemma NothingEnabledLeavesNone(x: Inputs, imageUrl: string, remote: Remote)
    requires !remote.aggregateRaises
    requires !x.enableKlingPro && !x.enableKlingMaster && !x.enableMiniMax
    requires !x.enableLuma && !x.enableVeo2 && !x.enableWanPro
    ensures GenerateAllVideos(x, imageUrl, remote) == Some(seq(SlotCount, _ => JNull))
  {
    var flags := Enabled(x);
    NoneEnabledCountsZero(flags);
    assert Gather(flags, Outcomes(x, imageUrl, remote)) == Some([]) by {
      assert forall i :: 0 <= i < |flags| ==> !flags[i];
    }
  }

  /**
   * One provider's run cannot change another's slot: two remotes that give
   * the provider in slot `k` the same run give slot `k` the same answer,
   * whenever both answer.
   */
  lemma ProvidersIsolated(x: Inputs, imageUrl: string, remote1: Remote, remote2: Remote, k: nat)
    requires k < SlotCount && remote1.aggregateRaises == remote2.aggregateRaises
    requires RunOf(x, imageUrl, remote1, k) == RunOf(x, imageUrl, remote2, k)
    requires GenerateAllVideos(x, imageUrl, remote1).Some?
    requires GenerateAllVideos(x, imageUrl, remote2).Some?
    ensures GenerateAllVideos(x, imageUrl, remote1).value[k] == GenerateAllVideos(x, imageUrl, remote2).value[k]
  {
    if !remote1.aggregateRaises {
      var flags := Enabled(x);
      if CountEnabled(flags) > 0 {
        SlotsHoldOwnAnswers(x, imageUrl, remote1, k);
        SlotsHoldOwnAnswers(x, imageUrl, remote2, k);
      }
    }
  }
  /** A reply naming a video object with a URL ends polling with that URL. */
  lemma FirstVideoUrlWins(p: Provider, url: Json, rest: seq<Reply>)
    ensures Poll(p, [Got(JObj(map["video" := JObj(map["url" := url])]))] + rest) == Some(url)
  {
    var replies := [Got(JObj(map["video" := JObj(map["url" := url])]))] + rest;
    assert replies[0] == Got(JObj(map["video" := JObj(map["url" := url])]));
  }

  /** A FAILED status with no video ends the run with the provider's own error. */
  lemma FailedStatusIsProviderError(p: Provider, rest: seq<Reply>)
    ensures Poll(p, [Got(JObj(map["status" := JStr("FAILED")]))] + rest) == Some(JStr(ProviderError(p)))
  {
    var replies := [Got(JObj(map["status" := JStr("FAILED")]))] + rest;
    assert replies[0] == Got(JObj(map["status" := JStr("FAILED")]));
  }

  /**
   * The providers that also have a node of their own are submitted to the
   * same image-to-video endpoints as those nodes use.
   */
  lemma SharedEndpointsAgree()
    ensures Providers[0].endpoint == Kling.Pro16.endpointImage.value
    ensures Providers[1].endpoint == Kling.Master.endpointImage.value
    ensures Providers[3].endpoint == Luma.ImageEndpoint
  {
  }

  /**
   * An enabled slot's answer is the remote's answer to that provider's own
   * request, which carries the prompt and the URL the picture uploaded to.
   */
  lemma EnabledSlotAnswersItsRequest(x: Inputs, image: ImageRef, up: ImageRef -> Option<string>,
                                     remote: Remote, k: nat)
    requires !remote.aggregateRaises && k < SlotCount && Enabled(x)[k]
    requires Upload(up, image).Some?
    ensures var url := Upload(up, image).value;
      var args := ProviderArgs(k, x, url);
      && args["image_url"] == JStr(url) && args["prompt"] == JStr(x.prompt)
      && (GenerateVideos(x, image, up, remote).Some?
          <==> forall j :: 0 <= j < SlotCount && Enabled(x)[j] ==> RunProvider(Providers[j], RunOf(x, url, remote, j)).Some?)
      && (GenerateVideos(x, image, up, remote).Some? ==>
          RunProvider(Providers[k], remote.respond(Providers[k].endpoint, args))
            == Some(GenerateVideos(x, image, up, remote).value[k]))
  {
    var url := Upload(up, image).value;
    if GenerateAllVideos(x, url, remote).Some? {
      CountPrefixBound(Enabled(x), k);
      SlotsHoldOwnAnswers(x, url, remote, k);
    }
  }
}

=== FILE: fal_config.dfy ===
/**
 * The process-wide credential holder: an API key and a lazily built client
 * that is dropped whenever the key changes. Calls are taken one at a time;
 * the lock that serialises them in the Python code is not modelled.
 */
module FalConfig {
  import opened Values

  const NotConfiguredMessage: string :=
    "FAL_KEY is not configured. Set the FAL_KEY environment variable or update config.ini."

  /** A client handle built for `key`; `serial` tells apart separately built clients. */
  datatype Client = Client(key: string, serial: nat)

  /** `built` counts the clients constructed so far, so the next one gets serial `built`. */
  datatype Config = Config(key: Option<string>, client: Option<Client>, built: nat)

  /** A cached client was built for the current key and before the counter's value. */
  predicate Valid(c: Config) {
    c.client.Some? ==>
      && c.key.Some?
      && c.client.value.key == c.key.value
      && c.client.value.serial < c.built
  }

  /** A usable key is present: not None and not the empty string. */
  predicate HasKey(c: Config) {
    c.key.Some? && c.key.value != ""
  }

  /** First start: the stripped environment key, else the stripped config-file key, else None. */
  function Initial(envKey: string, fileKey: string): (c: Config)
    ensures Valid(c) && c.client.None?
    ensures HasKey(c) <==> Strip(envKey) != "" || Strip(fileKey) != ""
    ensures Strip(envKey) != "" ==> c.key == Some(Strip(envKey))
    ensures Strip(envKey) == "" && Strip(fileKey) != "" ==> c.key == Some(Strip(fileKey))
  {
    var e := Strip(envKey);
    var f := Strip(fileKey);
    Config(if e != "" then Some(e) else if f != "" then Some(f) else None, None, 0)
  }

  /** Hot-swap the key: a non-empty argument is stored stripped, an empty one unsets it. */
  function RefreshKey(c: Config, key: string): (c': Config)
    ensures c'.client.None? && c'.built == c.built
    ensures Valid(c')
    ensures HasKey(c') <==> Strip(key) != ""
    ensures HasKey(c') ==> c'.key == Some(Strip(key))
  {
    Config(if key != "" then Some(Strip(key)) else None, None, c.built)
  }

  datatype ClientResult = ClientResult(config: Config, client: Option<Client>)

  /** Return the cached client, building one first if there is none; fails without a key. */
  function GetClient(c: Config): (r: ClientResult)
    requires Valid(c)
    ensures Valid(r.config)
    ensures r.client.None? <==> !HasKey(c)
    ensures !HasKey(c) ==> r.config == c
    ensures r.client.Some? ==> r.client.value.key == c.key.value && r.config.client == r.client
    ensures r.config.key == c.key
  {
    if !HasKey(c) then ClientResult(c, None)
    else if c.client.Some? then ClientResult(c, c.client)
    else
      var made := Client(c.key.value, c.built);
      ClientResult(Config(c.key, Some(made), c.built + 1), Some(made))
  }

  /** Repeated calls hand back the very same client and leave the state alone. */
  lemma GetClientIsStable(c: Config)
    requires Valid(c)
    requires HasKey(c)
    ensures var r := GetClient(c);
      GetClient(r.config) == ClientResult(r.config, r.client)
  {
  }

  /**
   * After a refresh with a key that strips to something non-empty, the next
   * request builds a client for that stripped key that differs from every
   * client built before the refresh.
   */
  lemma RefreshRebuildsClient(c: Config, key: string)
    requires Valid(c)
    requires Strip(key) != ""
    ensures var r := GetClient(RefreshKey(c, key));
      && r.client.Some?
      && r.client.value.key == Strip(key)
      && r.client.value.serial == c.built
      && (c.client.Some? ==> r.client.value != c.client.value)
  {
  }

  /** A key made only of whitespace is kept as "" and still refuses to build a client. */
  lemma BlankKeyRefusesClient(c: Config, key: string)
    requires Valid(c)
    requires key != "" && Strip(key) == ""
    ensures RefreshKey(c, key).key == Some("")
    ensures GetClient(RefreshKey(c, key)).client.None?
  {
  }
}

=== FILE: flux.dfy ===
/**
 * The Flux image nodes. The classic nodes share one body pattern (their
 * fixed settings, an image size, an optional seed); FluxLora and FluxGeneral
 * add LoRAs, and FluxGeneral adds IP-adapter, ControlNet and ControlNet-union
 * entries whose images upload on a best-effort basis. The Kontext family
 * uploads its input pictures first and falls back to the placeholder.
 */
module Flux {
  import opened Values
  import opened ImageUtils
  import opened ApiHandler

  // ---------------------------------------------------------------------
  // Classic nodes

  datatype Node = Node(modelName: string, endpoint: string)

  const FluxPro := Node("FluxPro", "fal-ai/flux-pro")
  const FluxDev := Node("FluxDev", "fal-ai/flux/dev")
  const FluxSchnell := Node("FluxSchnell", "fal-ai/flux/schnell")
  const FluxPro11 := Node("FluxPro 1.1", "fal-ai/flux-pro/v1.1")
  const FluxUltra := Node("FluxUltra", "fal-ai/flux-pro/v1.1-ultra")
  const FluxLora := Node("FluxLora", "fal-ai/flux-lora")
  const FluxGeneral := Node("FluxGeneral", "fal-ai/flux-general")

  /** The size widgets: a preset name, or "custom" with explicit dimensions. */
  datatype SizeInput = SizeInput(preset: string, width: int, height: int)

  const CustomSize: string := "custom"
  /** The classic nodes' "no seed" value. */
  const SeedUnset: int := -1

  /**
   * A classic body: the node's fixed settings, then `image_size` (for the
   * nodes that have one) and `seed` unless it is the sentinel.
   */
  function ClassicArgs(settings: map<string, Json>, size: Option<SizeInput>, seed: int): (a: map<string, Json>)
    requires "image_size" !in settings && "seed" !in settings
    ensures a.Keys == settings.Keys + (if size.Some? then {"image_size"} else {}) + (if seed != SeedUnset then {"seed"} else {})
    ensures forall k :: k in settings ==> a[k] == settings[k]
    ensures size.Some? && size.value.preset == CustomSize ==>
      a["image_size"] == JObj(map["width" := Int(size.value.width), "height" := Int(size.value.height)])
    ensures size.Some? && size.value.preset != CustomSize ==> a["image_size"] == JStr(size.value.preset)
    ensures seed != SeedUnset ==> a["seed"] == Int(seed)
  {
    var a := match size
      case None => settings
      case Some(s) =>
        settings["image_size" := if s.preset == CustomSize then JObj(map["width" := Int(s.width), "height" := Int(s.height)]) else JStr(s.preset)];
    if seed != SeedUnset then a["seed" := Int(seed)] else a
  }

  function ProSettings(prompt: string, steps: int, guidance: real, numImages: int, safety: string): map<string, Json> {
    map["prompt" := JStr(prompt), "num_inference_steps" := Int(steps), "guidance_scale" := JNum(guidance),
        "num_images" := Int(numImages), "safety_tolerance" := JStr(safety)]
  }

  function DevSettings(prompt: string, steps: int, guidance: real, numImages: int, safetyChecker: bool): map<string, Json> {
    map["prompt" := JStr(prompt), "num_inference_steps" := Int(steps), "guidance_scale" := JNum(guidance),
        "num_images" := Int(numImages), "enable_safety_checker" := JBool(safetyChecker)]
  }

  function SchnellSettings(prompt: string, steps: int, numImages: int, safetyChecker: bool): map<string, Json> {
    map["prompt" := JStr(prompt), "num_inference_steps" := Int(steps), "num_images" := Int(numImages),
        "enable_safety_checker" := JBool(safetyChecker)]
  }

  function Pro11Settings(prompt: string, numImages: int, safety: string): map<string, Json> {
    map["prompt" := JStr(prompt), "num_images" := Int(numImages), "safety_tolerance" := JStr(safety)]
  }

  function UltraSettings(prompt: string, aspectRatio: string, numImages: int, safety: string,
                         safetyChecker: bool, raw: bool): map<string, Json> {
    map["prompt" := JStr(prompt), "aspect_ratio" := JStr(aspectRatio), "num_images" := Int(numImages),
        "safety_tolerance" := JStr(safety), "enable_safety_checker" := JBool(safetyChecker), "raw" := JBool(raw)]
  }

  function GeneralSettings(prompt: string, steps: int, guidance: real, realCfg: real, numImages: int,
                           safetyChecker: bool, useRealCfg: bool): map<string, Json> {
    map["prompt" := JStr(prompt), "num_inference_steps" := Int(steps), "guidance_scale" := JNum(guidance),
        "real_cfg_scale" := JNum(realCfg), "num_images" := Int(numImages),
        "enable_safety_checker" := JBool(safetyChecker), "use_real_cfg" := JBool(useRealCfg)]
  }

  /** A classic node always submits exactly one job to its own endpoint. */
  function ClassicPlan(node: Node, settings: map<string, Json>, size: Option<SizeInput>, seed: int): (p: ImagePlan)
    requires "image_size" !in settings && "seed" !in settings
    ensures p.SubmitImage? && p.req.model == node.modelName && p.req.endpoint == node.endpoint
    ensures p.req.args == ClassicArgs(settings, size, seed)
  {
    SubmitImage(Request(node.modelName, node.endpoint, ClassicArgs(settings, size, seed)))
  }

  /** `image_size` as the classic nodes send it: a width/height dict for "custom", else the preset name. */
  predicate SizeSent(args: map<string, Json>, size: SizeInput) {
    && "image_size" in args
    && args["image_size"] == (if size.preset == CustomSize
                              then JObj(map["width" := Int(size.width), "height" := Int(size.height)])
                              else JStr(size.preset))
  }

  /** The seed is sent, as an int, exactly when it is not the -1 sentinel. */
  predicate SeedSent(args: map<string, Json>, seed: int) {
    && ("seed" in args <==> seed != SeedUnset)
    && (seed != SeedUnset ==> args["seed"] == Int(seed))
  }

  function FluxProPlan(prompt: string, size: SizeInput, steps: int, guidance: real, numImages: int,
                       safety: string, seed: int): (p: ImagePlan)
    ensures p.SubmitImage? && p.req.model == FluxPro.modelName && p.req.endpoint == FluxPro.endpoint
    ensures p.req.args.Keys == {"prompt", "num_inference_steps", "guidance_scale", "num_images", "safety_tolerance",
                                "image_size"} + (if seed != SeedUnset then {"seed"} else {})
    ensures p.req.args["prompt"] == JStr(prompt) && p.req.args["num_inference_steps"] == Int(steps)
    ensures p.req.args["guidance_scale"] == JNum(guidance) && p.req.args["num_images"] == Int(numImages)
    ensures p.req.args["safety_tolerance"] == JStr(safety)
    ensures SizeSent(p.req.args, size) && SeedSent(p.req.args, seed)
  {
    ClassicPlan(FluxPro, ProSettings(prompt, steps, guidance, numImages, safety), Some(size), seed)
  }

  function FluxDevPlan(prompt: string, size: SizeInput, steps: int, guidance: real, numImages: int,
                       safetyChecker: bool, seed: int): (p: ImagePlan)
    ensures p.SubmitImage? && p.req.model == FluxDev.modelName && p.req.endpoint == FluxDev.endpoint
    ensures p.req.args.Keys == {"prompt", "num_inference_steps", "guidance_scale", "num_images", "enable_safety_checker",
                                "image_size"} + (if seed != SeedUnset then {"seed"} else {})
    ensures p.req.args["prompt"] == JStr(prompt) && p.req.args["num_inference_steps"] == Int(steps)
    ensures p.req.args["guidance_scale"] == JNum(guidance) && p.req.args["num_images"] == Int(numImages)
    ensures p.req.args["enable_safety_checker"] == JBool(safetyChecker)
    ensures SizeSent(p.req.args, size) && SeedSent(p.req.args, seed)
  {
    ClassicPlan(FluxDev, DevSettings(prompt, steps, guidance, numImages, safetyChecker), Some(size), seed)
  }

  function FluxSchnellPlan(prompt: string, size: SizeInput, steps: int, numImages: int,
                           safetyChecker: bool, seed: int): (p: ImagePlan)
    ensures p.SubmitImage? && p.req.model == FluxSchnell.modelName && p.req.endpoint == FluxSchnell.endpoint
    ensures p.req.args.Keys == {"prompt", "num_inference_steps", "num_images", "enable_safety_checker", "image_size"}
      + (if seed != SeedUnset then {"seed"} else {})
    ensures p.req.args["prompt"] == JStr(prompt) && p.req.args["num_inference_steps"] == Int(steps)
    ensures p.req.args["num_images"] == Int(numImages) && p.req.args["enable_safety_checker"] == JBool(safetyChecker)
    ensures SizeSent(p.req.args, size) && SeedSent(p.req.args, seed)
  {
    ClassicPlan(FluxSchnell, SchnellSettings(prompt, steps, numImages, safetyChecker), Some(size), seed)
  }

  function FluxPro11Plan(prompt: string, size: SizeInput, numImages: int, safety: string, seed: int): (p: ImagePlan)
    ensures p.SubmitImage? && p.req.model == FluxPro11.modelName && p.req.endpoint == FluxPro11.endpoint
    ensures p.req.args.Keys == {"prompt", "num_images", "safety_tolerance", "image_size"}
      + (if seed != SeedUnset then {"seed"} else {})
    ensures p.req.args["prompt"] == JStr(prompt) && p.req.args["num_images"] == Int(numImages)
    ensures p.req.args["safety_tolerance"] == JStr(safety)
    ensures SizeSent(p.req.args, size) && SeedSent(p.req.args, seed)
  {
    ClassicPlan(FluxPro11, Pro11Settings(prompt, numImages, safety), Some(size), seed)
  }

  /** Ultra takes an aspect ratio in place of an image size. */
  function FluxUltraPlan(prompt: string, aspectRatio: string, numImages: int, safety: string,
                         safetyChecker: bool, raw: bool, seed: int): (p: ImagePlan)
    ensures p.SubmitImage? && p.req.model == FluxUltra.modelName && p.req.endpoint == FluxUltra.endpoint
    ensures p.req.args.Keys == {"prompt", "aspect_ratio", "num_images", "safety_tolerance", "enable_safety_checker", "raw"}
      + (if seed != SeedUnset then {"seed"} else {})
    ensures "image_size" !in p.req.args && p.req.args["aspect_ratio"] == JStr(aspectRatio)
    ensures p.req.args["prompt"] == JStr(prompt) && p.req.args["num_images"] == Int(numImages)
    ensures p.req.args["safety_tolerance"] == JStr(safety)
    ensures p.req.args["enable_safety_checker"] == JBool(safetyChecker) && p.req.args["raw"] == JBool(raw)
    ensures SeedSent(p.req.args, seed)
  {
    ClassicPlan(FluxUltra, UltraSettings(prompt, aspectRatio, numImages, safety, safetyChecker, raw), None, seed)
  }

  /** The seed sentinel: -1 leaves the seed out, every other value is sent, 0 included. */
  lemma ClassicSeedSentinel(settings: map<string, Json>, size: Option<SizeInput>, seed: int)
    requires "image_size" !in settings && "seed" !in settings
    ensures "seed" in ClassicArgs(settings, size, seed) <==> seed != -1
    ensures ClassicArgs(settings, size, -1).Keys == settings.Keys + (if size.Some? then {"image_size"} else {})
  {
  }

  // ---------------------------------------------------------------------
  // LoRAs

  function LoraEntry(path: string, scale: real): Json {
    JObj(map["path" := JStr(path), "scale" := JNum(scale)])
  }

  /** One entry per non-empty path, the first slot before the second. */
  function Loras(path1: string, scale1: real, path2: string, scale2: real): (r: seq<Json>)
    ensures |r| == (if path1 != "" then 1 else 0) + (if path2 != "" then 1 else 0)
    ensures path1 != "" ==> r[0] == LoraEntry(path1, scale1)
    ensures path2 != "" ==> r[|r| - 1] == LoraEntry(path2, scale2)
  {
    (if path1 != "" then [LoraEntry(path1, scale1)] else []) + (if path2 != "" then [LoraEntry(path2, scale2)] else [])
  }

  /** `loras` is attached only when at least one path is given. */
  function WithLoras(args: map<string, Json>, loras: seq<Json>): (a: map<string, Json>)
    ensures a.Keys == args.Keys + (if loras != [] then {"loras"} else {})
    ensures forall k :: k in args && k != "loras" ==> a[k] == args[k]
    ensures loras != [] ==> a["loras"] == JList(loras)
  {
    if loras != [] then args["loras" := JList(loras)] else args
  }

  function FluxLoraPlan(prompt: string, size: SizeInput, steps: int, guidance: real, numImages: int,
                        safetyChecker: bool, seed: int,
                        path1: string, scale1: real, path2: string, scale2: real): (p: ImagePlan)
    ensures p.SubmitImage? && p.req.model == FluxLora.modelName && p.req.endpoint == FluxLora.endpoint
    ensures "loras" in p.req.args <==> path1 != "" || path2 != ""
    ensures "loras" in p.req.args ==> p.req.args["loras"] == JList(Loras(path1, scale1, path2, scale2))
    ensures var base := ClassicArgs(DevSettings(prompt, steps, guidance, numImages, safetyChecker), Some(size), seed);
      && p.req.args.Keys == base.Keys + (if path1 != "" || path2 != "" then {"loras"} else {})
      && forall k :: k in base ==> p.req.args[k] == base[k]
  {
    var base := ClassicArgs(DevSettings(prompt, steps, guidance, numImages, safetyChecker), Some(size), seed);
    assert "loras" !in base;
    SubmitImage(Request(FluxLora.modelName, FluxLora.endpoint, WithLoras(base, Loras(path1, scale1, path2, scale2))))
  }

  /** Both paths empty: no `loras` key at all, not an empty list. */
  lemma NoLorasWithoutPaths(args: map<string, Json>, scale1: real, scale2: real)
    requires "loras" !in args
    ensures WithLoras(args, Loras("", scale1, "", scale2)) == args
  {
  }

  /** Only the second path given: a single entry, for the second path. */
  lemma SecondLoraAlone(path2: string, scale1: real, scale2: real)
    requires path2 != ""
    ensures Loras("", scale1, path2, scale2) == [LoraEntry(path2, scale2)]
  {
  }

  // ---------------------------------------------------------------------
  // FluxGeneral adapters

  const NoChoice: string := "None"
  const ImageEncoderPath: string := "openai/clip-vit-large-patch14"
  const XLabsIpAdapter: string := "XLabs-AI/flux-ip-adapter"
  const XLabsIpAdapterUrl: string :=
    "https://huggingface.co/XLabs-AI/flux-ip-adapter/resolve/main/flux-ip-adapter.safetensors?download=true"

  /**
   * The ControlNet names the node knows. Each stands for a weight file in
   * the Hugging Face repository of the same name.
   */
  const KnownControlnets: set<string> := {
    "XLabs-AI/flux-controlnet-depth-v3", "Shakker-Labs/FLUX.1-dev-ControlNet-Depth",
    "jasperai/Flux.1-dev-Controlnet-Depth", "jasperai/Flux.1-dev-Controlnet-Surface-Normals",
    "XLabs-AI/flux-controlnet-canny-v3", "InstantX/FLUX.1-dev-Controlnet-Canny",
    "jasperai/Flux.1-dev-Controlnet-Upscaler", "promeai/FLUX.1-controlnet-lineart-promeai"
  }

  /** The weight file of a known ControlNet; the two XLabs repositories name theirs after the model. */
  function WeightFile(name: string): string {
    if name == "XLabs-AI/flux-controlnet-depth-v3" then "flux-depth-controlnet-v3.safetensors"
    else if name == "XLabs-AI/flux-controlnet-canny-v3" then "flux-canny-controlnet-v3.safetensors"
    else "diffusion_pytorch_model.safetensors"
  }

  function HuggingFaceFile(repo: string, file: string): string {
    "https://huggingface.co/" + repo + "/resolve/main/" + file
  }

  /** `controlnet_mapping.get(name, name)`: known names translate, others pass through. */
  function ControlnetPath(name: string): (path: string)
    ensures name in KnownControlnets ==> path == HuggingFaceFile(name, WeightFile(name))
    ensures name !in KnownControlnets ==> path == name
  {
    if name in KnownControlnets then HuggingFaceFile(name, WeightFile(name)) else name
  }

  datatype Adapters = Adapters(
    ipAdapter: string,
    ipAdapterScale: real,
    controlnet: string,
    controlnetScale: real,
    controlnetUnion: string,
    controlMode: string,
    controlImage: Option<ImageRef>,
    controlMask: Option<MaskRef>,
    ipAdapterImage: Option<ImageRef>,
    ipAdapterMask: Option<MaskRef>)

  /** The URL of an optional picture or mask, when it is given and its upload succeeds. */
  function ImageUrl<T>(up: T -> Option<string>, img: Option<T>): (r: Option<string>)
    ensures r.Some? <==> img.Some? && Upload(up, img.value).Some?
    ensures r.Some? ==> r == Upload(up, img.value)
  {
    if img.Some? then Upload(up, img.value) else None
  }

  /** Fields of an entry that gained an uploaded picture, plus its mask when that uploads too. */
  function WithMask(fields: map<string, Json>, maskUrl: Option<string>): (f: map<string, Json>)
    ensures f.Keys == fields.Keys + (if maskUrl.Some? then {"mask_image_url"} else {})
    ensures forall k :: k in fields && k != "mask_image_url" ==> f[k] == fields[k]
    ensures maskUrl.Some? ==> f["mask_image_url"] == JStr(maskUrl.value)
  {
    if maskUrl.Some? then fields["mask_image_url" := JStr(maskUrl.value)] else fields
  }

  /**
   * The single `controlnets` entry: present whenever a ControlNet is chosen;
   * it carries the control image only when that uploads, and the mask only
   * alongside the image.
   */
  function ControlnetEntry(a: Adapters, up: ImageRef -> Option<string>, upMask: MaskRef -> Option<string>)
    : (r: Option<map<string, Json>>)
    ensures r.Some? <==> a.controlnet != NoChoice
  {
    if a.controlnet == NoChoice then None
    else
      var base := map["path" := JStr(ControlnetPath(a.controlnet)), "conditioning_scale" := JNum(a.controlnetScale)];
      match ImageUrl(up, a.controlImage)
      case None => Some(base)
      case Some(url) => Some(WithMask(base["control_image_url" := JStr(url)], ImageUrl(upMask, a.controlMask)))
  }

  /**
   * The single `controlnet_unions` entry: the union's name as path and one
   * control, which gains the control image (and then the mask) on upload.
   */
  function UnionControl(a: Adapters, up: ImageRef -> Option<string>, upMask: MaskRef -> Option<string>)
    : map<string, Json>
  {
    var base := map["control_mode" := JStr(a.controlMode)];
    match ImageUrl(up, a.controlImage)
    case None => base
    case Some(url) => WithMask(base["control_image_url" := JStr(url)], ImageUrl(upMask, a.controlMask))
  }

  function UnionEntry(a: Adapters, up: ImageRef -> Option<string>, upMask: MaskRef -> Option<string>)
    : (r: Option<map<string, Json>>)
    ensures r.Some? <==> a.controlnetUnion != NoChoice
    ensures r.Some? ==> r.value == map["path" := JStr(a.controlnetUnion), "controls" := JList([JObj(UnionControl(a, up, upMask))])]
  {
    if a.controlnetUnion == NoChoice then None
    else Some(map["path" := JStr(a.controlnetUnion), "controls" := JList([JObj(UnionControl(a, up, upMask))])])
  }

  /**
   * The single `ip_adapters` entry: the raw name as path until the adapter
   * image uploads; then the XLabs adapter is replaced by its weight-file URL
   * and the image URL (and an uploaded mask) are added.
   */
  function IpAdapterEntry(a: Adapters, up: ImageRef -> Option<string>, upMask: MaskRef -> Option<string>)
    : (r: Option<map<string, Json>>)
    ensures r.Some? <==> a.ipAdapter != NoChoice
  {
    if a.ipAdapter == NoChoice then None
    else match ImageUrl(up, a.ipAdapterImage)
      case None =>
        Some(map["path" := JStr(a.ipAdapter), "image_encoder_path" := JStr(ImageEncoderPath),
                 "scale" := JNum(a.ipAdapterScale)])
      case Some(url) =>
        var path := if a.ipAdapter == XLabsIpAdapter then XLabsIpAdapterUrl else a.ipAdapter;
        var f := map["path" := JStr(path), "image_encoder_path" := JStr(ImageEncoderPath), "image_url" := JStr(url),
                     "scale" := JNum(a.ipAdapterScale)];
        Some(WithMask(f, ImageUrl(upMask, a.ipAdapterMask)))
  }

  /**
   * The ControlNet entry names its weights and scale; the control image URL
   * is added when it uploads, and the mask URL only after it.
   */
  lemma ControlnetEntryFields(a: Adapters, up: ImageRef -> Option<string>, upMask: MaskRef -> Option<string>)
    requires a.controlnet != NoChoice
    ensures var f := ControlnetEntry(a, up, upMask).value;
      && f.Keys == {"path", "conditioning_scale"}
        + (if ImageUrl(up, a.controlImage).Some? then {"control_image_url"} else {})
        + (if ImageUrl(up, a.controlImage).Some? && ImageUrl(upMask, a.controlMask).Some? then {"mask_image_url"} else {})
      && f["path"] == JStr(ControlnetPath(a.controlnet))
      && f["conditioning_scale"] == JNum(a.controlnetScale)
      && (ImageUrl(up, a.controlImage).Some? ==> f["control_image_url"] == JStr(ImageUrl(up, a.controlImage).value))
  {
  }

  /** The one control of a union entry carries its mode, then the control image and mask as they upload. */
  lemma UnionControlFields(a: Adapters, up: ImageRef -> Option<string>, upMask: MaskRef -> Option<string>)
    ensures var c := UnionControl(a, up, upMask);
      && c.Keys == {"control_mode"}
        + (if ImageUrl(up, a.controlImage).Some? then {"control_image_url"} else {})
        + (if ImageUrl(up, a.controlImage).Some? && ImageUrl(upMask, a.controlMask).Some? then {"mask_image_url"} else {})
      && c["control_mode"] == JStr(a.controlMode)
      && (ImageUrl(up, a.controlImage).Some? ==> c["control_image_url"] == JStr(ImageUrl(up, a.controlImage).value))
  {
  }

  /**
   * Without an uploaded adapter image the IP-adapter entry keeps the raw
   * name and has no image; with one, it gains the image URL, an uploaded
   * mask, and the XLabs weight-file path.
   */
  lemma IpAdapterEntryFields(a: Adapters, up: ImageRef -> Option<string>, upMask: MaskRef -> Option<string>)
    requires a.ipAdapter != NoChoice
    ensures ImageUrl(up, a.ipAdapterImage).None? ==>
      IpAdapterEntry(a, up, upMask).value
        == map["path" := JStr(a.ipAdapter), "image_encoder_path" := JStr(ImageEncoderPath), "scale" := JNum(a.ipAdapterScale)]
    ensures ImageUrl(up, a.ipAdapterImage).Some? ==>
      var f := IpAdapterEntry(a, up, upMask).value;
      && f.Keys == {"path", "image_encoder_path", "image_url", "scale"}
        + (if ImageUrl(upMask, a.ipAdapterMask).Some? then {"mask_image_url"} else {})
      && f["path"] == JStr(if a.ipAdapter == XLabsIpAdapter then XLabsIpAdapterUrl else a.ipAdapter)
      && f["image_url"] == JStr(ImageUrl(up, a.ipAdapterImage).value)
  {
  }

  /** A chosen adapter becomes a one-element list under its key. */
  function Attach(args: map<string, Json>, key: string, entry: Option<map<string, Json>>): (a: map<string, Json>)
    ensures a.Keys == args.Keys + (if entry.Some? then {key} else {})
    ensures forall k :: k in args && k != key ==> a[k] == args[k]
    ensures entry.Some? ==> a[key] == JList([JObj(entry.value)])
  {
    if entry.Some? then args[key := JList([JObj(entry.value)])] else args
  }

  /** The classic body with each chosen adapter's entry attached. */
  function WithAdapters(base: map<string, Json>, ipAdapter: Option<map<string, Json>>,
                        controlnet: Option<map<string, Json>>, union: Option<map<string, Json>>): (r: map<string, Json>)
    requires "ip_adapters" !in base && "controlnets" !in base && "controlnet_unions" !in base
    ensures r.Keys == base.Keys
      + (if ipAdapter.Some? then {"ip_adapters"} else {})
      + (if controlnet.Some? then {"controlnets"} else {})
      + (if union.Some? then {"controlnet_unions"} else {})
    ensures forall k :: k in base ==> r[k] == base[k]
    ensures ipAdapter.Some? ==> r["ip_adapters"] == JList([JObj(ipAdapter.value)])
    ensures controlnet.Some? ==> r["controlnets"] == JList([JObj(controlnet.value)])
    ensures union.Some? ==> r["controlnet_unions"] == JList([JObj(union.value)])
  {
    var r := Attach(base, "ip_adapters", ipAdapter);
    var r := Attach(r, "controlnets", controlnet);
    Attach(r, "controlnet_unions", union)
  }

  /**
   * The FluxGeneral body from its parts: the classic body, then each chosen
   * adapter's entry, then the LoRAs.
   */
  function GeneralArgs(base: map<string, Json>, ipAdapter: Option<map<string, Json>>,
                       controlnet: Option<map<string, Json>>, union: Option<map<string, Json>>,
                       loras: seq<Json>): (r: map<string, Json>)
    requires "ip_adapters" !in base && "controlnets" !in base && "controlnet_unions" !in base && "loras" !in base
    ensures "ip_adapters" in r <==> ipAdapter.Some?
    ensures "controlnets" in r <==> controlnet.Some?
    ensures "controlnet_unions" in r <==> union.Some?
    ensures r.Keys == base.Keys
      + (if ipAdapter.Some? then {"ip_adapters"} else {})
      + (if controlnet.Some? then {"controlnets"} else {})
      + (if union.Some? then {"controlnet_unions"} else {})
      + (if loras != [] then {"loras"} else {})
    ensures "loras" in r <==> loras != []
    ensures forall k :: k in base ==> k in r && r[k] == base[k]
    ensures loras != [] ==> r["loras"] == JList(loras)
    ensures ipAdapter.Some? ==> r["ip_adapters"] == JList([JObj(ipAdapter.value)])
    ensures controlnet.Some? ==> r["controlnets"] == JList([JObj(controlnet.value)])
    ensures union.Some? ==> r["controlnet_unions"] == JList([JObj(union.value)])
  {
    WithLoras(WithAdapters(base, ipAdapter, controlnet, union), loras)
  }

  /**
   * FluxGeneral always submits: failed adapter or mask uploads only drop the
   * corresponding URLs from the body.
   */
  function FluxGeneralPlan(settings: map<string, Json>, size: SizeInput, seed: int, a: Adapters,
                           path1: string, scale1: real, path2: string, scale2: real,
                           up: ImageRef -> Option<string>, upMask: MaskRef -> Option<string>): (p: ImagePlan)
    requires "image_size" !in settings && "seed" !in settings
    requires "ip_adapters" !in settings && "controlnets" !in settings
    requires "controlnet_unions" !in settings && "loras" !in settings
    ensures p.SubmitImage? && p.req.model == FluxGeneral.modelName && p.req.endpoint == FluxGeneral.endpoint
    ensures "ip_adapters" in p.req.args <==> a.ipAdapter != NoChoice
    ensures "loras" in p.req.args <==> path1 != "" || path2 != ""
    ensures var base := ClassicArgs(settings, Some(size), seed);
      && p.req.args.Keys == base.Keys
        + (if a.ipAdapter != NoChoice then {"ip_adapters"} else {})
        + (if a.controlnet != NoChoice then {"controlnets"} else {})
        + (if a.controlnetUnion != NoChoice then {"controlnet_unions"} else {})
        + (if path1 != "" || path2 != "" then {"loras"} else {})
      && forall k :: k in base ==> k in p.req.args && p.req.args[k] == base[k]
    ensures path1 != "" || path2 != "" ==> p.req.args["loras"] == JList(Loras(path1, scale1, path2, scale2))
    ensures a.ipAdapter != NoChoice ==> p.req.args["ip_adapters"] == JList([JObj(IpAdapterEntry(a, up, upMask).value)])
    ensures a.controlnet != NoChoice ==>
      "controlnets" in p.req.args && p.req.args["controlnets"] == JList([JObj(ControlnetEntry(a, up, upMask).value)])
    ensures a.controlnetUnion != NoChoice ==>
      "controlnet_unions" in p.req.args
      && p.req.args["controlnet_unions"] == JList([JObj(UnionEntry(a, up, upMask).value)])
  {
    var base := ClassicArgs(settings, Some(size), seed);
    var args := GeneralArgs(base, IpAdapterEntry(a, up, upMask), ControlnetEntry(a, up, upMask),
                            UnionEntry(a, up, upMask), Loras(path1, scale1, path2, scale2));
    SubmitImage(Request(FluxGeneral.modelName, FluxGeneral.endpoint, args))
  }

  /** A ControlNet or a ControlNet union is sent exactly when one is chosen, whatever the uploads do. */
  lemma ControlChoicesDecideKeys(settings: map<string, Json>, size: SizeInput, seed: int, a: Adapters,
                                 path1: string, scale1: real, path2: string, scale2: real,
                                 up: ImageRef -> Option<string>, upMask: MaskRef -> Option<string>)
    requires "image_size" !in settings && "seed" !in settings
    requires "ip_adapters" !in settings && "controlnets" !in settings
    requires "controlnet_unions" !in settings && "loras" !in settings
    ensures var args := FluxGeneralPlan(settings, size, seed, a, path1, scale1, path2, scale2, up, upMask).req.args;
      && ("controlnets" in args <==> a.controlnet != NoChoice)
      && ("controlnet_unions" in args <==> a.controlnetUnion != NoChoice)
  {
  }

  /**
   * The ControlNet entry FluxGeneral submits carries the mapped weight path
   * and its scale, and gains `control_image_url` exactly when the control
   * image uploads, holding that upload's URL.
   */
  lemma SentControlnetCarriesUpload(settings: map<string, Json>, size: SizeInput, seed: int, a: Adapters,
                                    path1: string, scale1: real, path2: string, scale2: real,
                                    up: ImageRef -> Option<string>, upMask: MaskRef -> Option<string>)
    requires "image_size" !in settings && "seed" !in settings
    requires "ip_adapters" !in settings && "controlnets" !in settings
    requires "controlnet_unions" !in settings && "loras" !in settings
    requires a.controlnet != NoChoice
    ensures var args := FluxGeneralPlan(settings, size, seed, a, path1, scale1, path2, scale2, up, upMask).req.args;
      && "controlnets" in args && args["controlnets"].JList? && |args["controlnets"].items| == 1
      && args["controlnets"].items[0].JObj?
      && var f := args["controlnets"].items[0].fields;
      && "path" in f && f["path"] == JStr(ControlnetPath(a.controlnet))
      && "conditioning_scale" in f && f["conditioning_scale"] == JNum(a.controlnetScale)
      && ("control_image_url" in f <==> a.controlImage.Some? && Upload(up, a.controlImage.value).Some?)
      && ("control_image_url" in f ==> f["control_image_url"] == JStr(Upload(up, a.controlImage.value).value))
  {
    ControlnetEntryFields(a, up, upMask);
  }

  /** The control image only decorates the ControlNet entry: its upload never removes the entry. */
  lemma FailedControlUploadKeepsEntry(a: Adapters, up: ImageRef -> Option<string>, upMask: MaskRef -> Option<string>)
    requires a.controlnet != NoChoice && ImageUrl(up, a.controlImage).None?
    ensures ControlnetEntry(a, up, upMask)
      == Some(map["path" := JStr(ControlnetPath(a.controlnet)), "conditioning_scale" := JNum(a.controlnetScale)])
  {
  }

  /** A mask without a successfully uploaded control image is ignored, whatever its upload does. */
  lemma MaskNeedsControlImage(a: Adapters, up: ImageRef -> Option<string>,
                              upMask1: MaskRef -> Option<string>, upMask2: MaskRef -> Option<string>)
    requires ImageUrl(up, a.controlImage).None?
    ensures ControlnetEntry(a, up, upMask1) == ControlnetEntry(a, up, upMask2)
    ensures UnionEntry(a, up, upMask1) == UnionEntry(a, up, upMask2)
  {
  }

  /** The XLabs adapter name becomes its weight-file URL only when the adapter image uploads. */
  lemma XLabsPathNeedsImage(a: Adapters, up: ImageRef -> Option<string>, upMask: MaskRef -> Option<string>)
    requires a.ipAdapter == XLabsIpAdapter
    ensures IpAdapterEntry(a, up, upMask).Some?
    ensures IpAdapterEntry(a, up, upMask).value["path"]
      == JStr(if ImageUrl(up, a.ipAdapterImage).Some? then XLabsIpAdapterUrl else XLabsIpAdapter)
  {
  }

  /** A listed name is replaced by its weight file; an unlisted one is sent as is. */
  lemma ControlnetMappingExamples()
    ensures ControlnetPath("InstantX/FLUX.1-dev-Controlnet-Canny")
      == HuggingFaceFile("InstantX/FLUX.1-dev-Controlnet-Canny", "diffusion_pytorch_model.safetensors")
    ensures ControlnetPath("XLabs-AI/flux-controlnet-depth-v3")
      == HuggingFaceFile("XLabs-AI/flux-controlnet-depth-v3", "flux-depth-controlnet-v3.safetensors")
    ensures ControlnetPath("my-org/custom-controlnet") == "my-org/custom-controlnet"
  {
  }

  // ---------------------------------------------------------------------
  // Kontext family

  datatype KontextSettings = KontextSettings(
    prompt: string,
    aspectRatio: Option<string>,
    maxQuality: bool,
    guidance: real,
    numImages: int,
    safety: string,
    outputFormat: string,
    seed: int)

  datatype Variant = Variant(modelName: string, maxModelName: string, endpoint: string, maxEndpoint: string)

  const Kontext := Variant("Flux Pro Kontext", "Flux Pro Kontext Max",
                           "fal-ai/flux-pro/kontext", "fal-ai/flux-pro/kontext/max")
  const KontextMulti := Variant("Flux Pro Kontext Multi", "Flux Pro Kontext Max Multi",
                                "fal-ai/flux-pro/kontext/multi", "fal-ai/flux-pro/kontext/max/multi")
  const KontextText := Variant("Flux Pro Kontext Text-to-Image", "Flux Pro Kontext Max Text-to-Image",
                               "fal-ai/flux-pro/kontext/text-to-image", "fal-ai/flux-pro/kontext/max/text-to-image")

  /** The common body; the Kontext seed is sent only when positive. */
  function KontextArgs(s: KontextSettings): (a: map<string, Json>)
    ensures a.Keys == {"prompt", "aspect_ratio", "guidance_scale", "num_images", "safety_tolerance", "output_format"}
      + (if s.seed > 0 then {"seed"} else {})
    ensures a["aspect_ratio"] == (if s.aspectRatio.Some? then JStr(s.aspectRatio.value) else JNull)
    ensures s.seed > 0 ==> a["seed"] == Int(s.seed)
    ensures a["prompt"] == JStr(s.prompt) && a["guidance_scale"] == JNum(s.guidance)
    ensures a["num_images"] == Int(s.numImages) && a["safety_tolerance"] == JStr(s.safety)
    ensures a["output_format"] == JStr(s.outputFormat)
  {
    var a := map["prompt" := JStr(s.prompt),
                 "aspect_ratio" := (if s.aspectRatio.Some? then JStr(s.aspectRatio.value) else JNull),
                 "guidance_scale" := JNum(s.guidance), "num_images" := Int(s.numImages),
                 "safety_tolerance" := JStr(s.safety), "output_format" := JStr(s.outputFormat)];
    if s.seed > 0 then a["seed" := Int(s.seed)] else a
  }

  /** `max_quality` picks the model name and the endpoint together. */
  function KontextRequest(v: Variant, s: KontextSettings, args: map<string, Json>): (r: Request)
    ensures r.model == (if s.maxQuality then v.maxModelName else v.modelName)
    ensures r.endpoint == (if s.maxQuality then v.maxEndpoint else v.endpoint)
    ensures r.args == args
  {
    Request(if s.maxQuality then v.maxModelName else v.modelName,
            if s.maxQuality then v.maxEndpoint else v.endpoint, args)
  }

  /** Single-image Kontext: a failed upload gives the placeholder without a job. */
  function KontextPlan(s: KontextSettings, image: ImageRef, up: ImageRef -> Option<string>): (p: ImagePlan)
    ensures p.BlankWithoutJob? <==> Upload(up, image).None?
    ensures p.SubmitImage? ==>
      && p.req.model == (if s.maxQuality then Kontext.maxModelName else Kontext.modelName)
      && p.req.endpoint == (if s.maxQuality then Kontext.maxEndpoint else Kontext.endpoint)
      && p.req.args.Keys == KontextArgs(s).Keys + {"image_url"}
      && (forall k :: k in KontextArgs(s) ==> p.req.args[k] == KontextArgs(s)[k])
      && p.req.args["image_url"] == JStr(Upload(up, image).value)
      && ("seed" in p.req.args <==> s.seed > 0)
  {
    match Upload(up, image)
    case None => BlankWithoutJob
    case Some(url) => SubmitImage(KontextRequest(Kontext, s, KontextArgs(s)["image_url" := JStr(url)]))
  }

  /**
   * Multi-image Kontext: the four slots upload in order, skipping empty
   * ones; a failed upload or fewer than two URLs gives the placeholder.
   */
  function KontextMultiPlan(s: KontextSettings, images: seq<Option<ImageRef>>, up: ImageRef -> Option<string>)
    : (p: ImagePlan)
    requires |images| == 4
    ensures p.BlankWithoutJob? <==> !AllUpload(up, images) || CountPresent(images) < 2
    ensures p.SubmitImage? ==>
      && p.req.model == (if s.maxQuality then KontextMulti.maxModelName else KontextMulti.modelName)
      && p.req.endpoint == (if s.maxQuality then KontextMulti.maxEndpoint else KontextMulti.endpoint)
      && p.req.args.Keys == KontextArgs(s).Keys + {"image_urls"}
      && (forall k :: k in KontextArgs(s) ==> p.req.args[k] == KontextArgs(s)[k])
      && p.req.args["image_urls"].JList?
      && |p.req.args["image_urls"].items| == CountPresent(images) >= 2
      && (forall i :: 0 <= i < 4 && images[i].Some? ==>
            && CountPresent(images[..i]) < |p.req.args["image_urls"].items|
            && p.req.args["image_urls"].items[CountPresent(images[..i])] == JStr(Upload(up, images[i].value).value))
  {
    match UploadAll(up, images)
    case None => BlankWithoutJob
    case Some(urls) =>
      if |urls| < 2 then BlankWithoutJob
      else SubmitImage(KontextRequest(KontextMulti, s, KontextArgs(s)["image_urls" := UrlList(urls)]))
  }

  /** Text-to-image Kontext always submits. */
  function KontextTextPlan(s: KontextSettings): (p: ImagePlan)
    ensures p.SubmitImage? && p.req.args == KontextArgs(s)
    ensures p.req.endpoint == (if s.maxQuality then KontextText.maxEndpoint else KontextText.endpoint)
  {
    SubmitImage(KontextRequest(KontextText, s, KontextArgs(s)))
  }

  /** A seed of 0 is the Kontext "unset" value, unlike the classic nodes' -1. */
  lemma SeedSentinelsDiffer(s: KontextSettings, settings: map<string, Json>, size: Option<SizeInput>)
    requires s.seed == 0 && "image_size" !in settings && "seed" !in settings
    ensures "seed" !in KontextArgs(s)
    ensures "seed" in ClassicArgs(settings, size, 0)
  {
  }

  /** One image in the first slot only: Kontext Multi refuses even when it uploads. */
  lemma SingleImageRefused(s: KontextSettings, img: ImageRef, up: ImageRef -> Option<string>)
    ensures KontextMultiPlan(s, [Some(img), None, None, None], up) == BlankWithoutJob
  {
    var images := [Some(img), None, None, None];
    assert images[1..][1..][1..][1..] == [];
    assert CountPresent(images[1..][1..][1..]) == 0;
    assert CountPresent(images[1..][1..]) == 0;
    assert CountPresent(images[1..]) == 0;
  }
}

=== FILE: image_utils.dfy ===
/**
 * Uploading input images. The conversion of a host tensor to PNG and the
 * upload call are an oracle from an image to the URL it came back with
 * (None when conversion or upload raised).
 */
module ImageUtils {
  import opened Values

  /** An input picture or mask handed to a node by the host, by identity. */
  datatype ImageRef = ImageRef(id: nat)
  datatype MaskRef = MaskRef(id: nat)

  /**
   * The callers' `url = upload_image(img); if not url: …`: an empty URL is
   * treated exactly like a failed upload. Pictures and masks (expanded to a
   * three-channel image first) go through the same check.
   */
  function Upload<T>(up: T -> Option<string>, img: T): (r: Option<string>)
    ensures r.Some? <==> up(img).Some? && up(img).value != ""
    ensures r.Some? ==> r == up(img)
  {
    match up(img)
    case Some(url) => if url != "" then Some(url) else None
    case None => None
  }

  /** How many of the slots hold an image. */
  function CountPresent(images: seq<Option<ImageRef>>): (n: nat)
    ensures n <= |images|
  {
    if images == [] then 0 else (if images[0].Some? then 1 else 0) + CountPresent(images[1..])
  }

  /** Every present image uploads to a non-empty URL. */
  predicate AllUpload(up: ImageRef -> Option<string>, images: seq<Option<ImageRef>>) {
    forall i :: 0 <= i < |images| && images[i].Some? ==> Upload(up, images[i].value).Some?
  }

  /**
   * Upload the present images in slot order, skipping empty slots; the first
   * failed upload abandons the whole collection.
   */
  function UploadAll(up: ImageRef -> Option<string>, images: seq<Option<ImageRef>>): (r: Option<seq<string>>)
    ensures r.Some? <==> AllUpload(up, images)
    ensures r.Some? ==> |r.value| == CountPresent(images)
    ensures r.Some? ==> forall i :: 0 <= i < |images| && images[i].Some? ==>
      CountPresent(images[..i]) < |r.value| && r.value[CountPresent(images[..i])] == Upload(up, images[i].value).value
    ensures r.Some? ==> forall k :: 0 <= k < |r.value| ==> r.value[k] != ""
  {
    if images == [] then Some([])
    else
      var tail := images[1..];
      assert forall i :: 1 <= i < |images| ==> images[i] == tail[i - 1];
      assert forall i :: 1 <= i < |images| ==> images[..i][1..] == tail[..i - 1];
      var rest := UploadAll(up, tail);
      match images[0]
      case None =>
        assert forall i :: 1 <= i < |images| ==> CountPresent(images[..i]) == CountPresent(tail[..i - 1]);
        rest
      case Some(img) =>
        match Upload(up, img)
        case None => None
        case Some(url) =>
          if rest.Some? then
            assert forall i :: 1 <= i < |images| ==> CountPresent(images[..i]) == 1 + CountPresent(tail[..i - 1]);
            Some([url] + rest.value)
          else None
  }

  /** A list of URLs as the JSON array sent in a request body. */
  function UrlList(urls: seq<string>): (j: Json)
    ensures j.JList? && |j.items| == |urls|
    ensures forall k :: 0 <= k < |urls| ==> j.items[k] == JStr(urls[k])
  {
    JList(seq(|urls|, k requires 0 <= k < |urls| => JStr(urls[k])))
  }
}

=== FILE: kling.dfy ===
/**
 * The Kling video nodes: one shared argument builder parameterised by what
 * each model variant supports (an image endpoint, a tail image, a negative
 * prompt, a CFG scale).
 */
module Kling {
  import opened Values
  import opened ImageUtils
  import opened ApiHandler

  const NoImageSupport: string := "Image input is not supported for this node"
  const ImageUploadFailed: string := "Failed to upload image"
  const TailUploadFailed: string := "Failed to upload tail image"
  const NoEndpoint: string := "Endpoint not configured for this node"

  datatype Variant = Variant(
    modelName: string,
    endpointText: Option<string>,
    endpointImage: Option<string>,
    supportsTail: bool,
    supportsNegativePrompt: bool,
    supportsCfgScale: bool)

  const Standard := Variant("kling-video/v1/standard",
    Some("fal-ai/kling-video/v1/standard/text-to-video"), Some("fal-ai/kling-video/v1/standard/image-to-video"),
    false, false, false)
  const Pro10 := Variant("kling-video/v1/pro",
    Some("fal-ai/kling-video/v1/pro/text-to-video"), Some("fal-ai/kling-video/v1/pro/image-to-video"),
    true, false, false)
  const Pro16 := Variant("kling-video/v1.6/pro",
    Some("fal-ai/kling-video/v1.6/pro/text-to-video"), Some("fal-ai/kling-video/v1.6/pro/image-to-video"),
    true, false, false)
  const Master := Variant("kling-video/v2/master",
    Some("fal-ai/kling-video/v2/master/text-to-video"), Some("fal-ai/kling-video/v2/master/image-to-video"),
    false, false, false)
  const Master21 := Variant("kling-video/v2.1/master",
    Some("fal-ai/kling-video/v2.1/master/text-to-video"), Some("fal-ai/kling-video/v2.1/master/image-to-video"),
    false, true, true)
  const Turbo25Pro := Variant("kling-video/v2.5-turbo/pro",
    Some("fal-ai/kling-video/v2.5-turbo/pro/text-to-video"), Some("fal-ai/kling-video/v2.5-turbo/pro/image-to-video"),
    true, true, true)

  datatype Inputs = Inputs(
    prompt: string,
    duration: string,
    aspectRatio: string,
    image: Option<ImageRef>,
    tailImage: Option<ImageRef>,
    negativePrompt: string,
    cfgScale: real)

  /** An endpoint attribute that is set and non-empty. */
  predicate Configured(e: Option<string>) {
    e.Some? && e.value != ""
  }

  /** `int(duration)` when the text parses as an integer, else the text itself. */
  function DurationArg(duration: string): Json {
    match ParseInt(duration)
    case Some(n) => Int(n)
    case None => JStr(duration)
  }

  /** The body before any image is attached, given the converted duration. */
  function BaseArgs(v: Variant, x: Inputs, duration: Json): (a: map<string, Json>)
    ensures "image_url" !in a && "tail_image_url" !in a
    ensures a.Keys == {"prompt", "duration", "aspect_ratio"}
      + (if v.supportsCfgScale then {"cfg_scale"} else {})
      + (if v.supportsNegativePrompt && x.negativePrompt != "" then {"negative_prompt"} else {})
    ensures a["prompt"] == JStr(x.prompt) && a["aspect_ratio"] == JStr(x.aspectRatio) && a["duration"] == duration
    ensures "cfg_scale" in a ==> a["cfg_scale"] == JNum(x.cfgScale)
    ensures "negative_prompt" in a ==> a["negative_prompt"] == JStr(x.negativePrompt)
  {
    var a := map["prompt" := JStr(x.prompt), "duration" := duration, "aspect_ratio" := JStr(x.aspectRatio)];
    var a := if v.supportsCfgScale then a["cfg_scale" := JNum(x.cfgScale)] else a;
    if v.supportsNegativePrompt && x.negativePrompt != "" then a["negative_prompt" := JStr(x.negativePrompt)] else a
  }

  /** The image-to-video branch once the main image has uploaded to `url`. */
  function ImageToVideo(v: Variant, base: map<string, Json>, tailImage: Option<ImageRef>, url: string,
                        up: ImageRef -> Option<string>): (p: VideoPlan)
    requires Configured(v.endpointImage)
    ensures p.RefuseVideo? <==> v.supportsTail && tailImage.Some? && Upload(up, tailImage.value).None?
    ensures p.RefuseVideo? ==> p.message == TailUploadFailed
    ensures p.SubmitVideo? ==>
      && p.req.model == v.modelName && p.req.endpoint == v.endpointImage.value
      && p.req.args.Keys == base.Keys + {"image_url"} + (if v.supportsTail && tailImage.Some? then {"tail_image_url"} else {})
      && p.req.args["image_url"] == JStr(url)
      && (v.supportsTail && tailImage.Some? ==> p.req.args["tail_image_url"] == JStr(Upload(up, tailImage.value).value))
      && forall k :: k in base && k != "image_url" && k != "tail_image_url" ==> p.req.args[k] == base[k]
  {
    var args := base["image_url" := JStr(url)];
    if v.supportsTail && tailImage.Some? then
      match Upload(up, tailImage.value)
      case None => RefuseVideo(TailUploadFailed)
      case Some(tailUrl) => SubmitVideo(Request(v.modelName, v.endpointImage.value, args["tail_image_url" := JStr(tailUrl)]))
    else SubmitVideo(Request(v.modelName, v.endpointImage.value, args))
  }

  /**
   * The shared `generate_video` once the body `base` is built: an image
   * selects the image endpoint (and is refused when the variant has none),
   * otherwise the text endpoint is used.
   */
  function Route(v: Variant, x: Inputs, base: map<string, Json>, up: ImageRef -> Option<string>): (p: VideoPlan)
    requires "image_url" !in base && "tail_image_url" !in base
    ensures p.RefuseVideo? <==>
      if x.image.Some? then
        || !Configured(v.endpointImage) || Upload(up, x.image.value).None?
        || (v.supportsTail && x.tailImage.Some? && Upload(up, x.tailImage.value).None?)
      else !Configured(v.endpointText)
    ensures x.image.Some? && !Configured(v.endpointImage) ==> p == RefuseVideo(NoImageSupport)
    ensures x.image.Some? && Configured(v.endpointImage) && Upload(up, x.image.value).None?
      ==> p == RefuseVideo(ImageUploadFailed)
    ensures x.image.Some? && Configured(v.endpointImage) && Upload(up, x.image.value).Some?
      && v.supportsTail && x.tailImage.Some? && Upload(up, x.tailImage.value).None?
      ==> p == RefuseVideo(TailUploadFailed)
    ensures x.image.None? && !Configured(v.endpointText) ==> p == RefuseVideo(NoEndpoint)
    ensures p.SubmitVideo? ==>
      && p.req.model == v.modelName
      && p.req.endpoint != ""
      && p.req.endpoint == (if x.image.Some? then v.endpointImage.value else v.endpointText.value)
      && p.req.args.Keys == base.Keys
        + (if x.image.Some? then {"image_url"} else {})
        + (if x.image.Some? && v.supportsTail && x.tailImage.Some? then {"tail_image_url"} else {})
      && (forall k :: k in base ==> p.req.args[k] == base[k])
      && (x.image.Some? ==> p.req.args["image_url"] == JStr(Upload(up, x.image.value).value))
      && (x.image.Some? && v.supportsTail && x.tailImage.Some? ==>
            p.req.args["tail_image_url"] == JStr(Upload(up, x.tailImage.value).value))
  {
    if x.image.Some? then
      if !Configured(v.endpointImage) then RefuseVideo(NoImageSupport)
      else
        match Upload(up, x.image.value)
        case None => RefuseVideo(ImageUploadFailed)
        case Some(url) => ImageToVideo(v, base, x.tailImage, url, up)
    else if !Configured(v.endpointText) then RefuseVideo(NoEndpoint)
    else SubmitVideo(Request(v.modelName, v.endpointText.value, base))
  }

  function Plan(v: Variant, x: Inputs, up: ImageRef -> Option<string>): VideoPlan {
    Route(v, x, BaseArgs(v, x, DurationArg(x.duration)), up)
  }

  /** The node: its plan, then the video job or the error text. */
  function GenerateVideo(v: Variant, x: Inputs, up: ImageRef -> Option<string>, env: Env): string {
    RunVideoPlan(Plan(v, x, up), env)
  }

  /** An unsupported image is refused whatever the uploader would have done. */
  lemma UnsupportedImageNeverUploads(v: Variant, x: Inputs, up1: ImageRef -> Option<string>,
                                     up2: ImageRef -> Option<string>, env: Env)
    requires x.image.Some? && !Configured(v.endpointImage)
    ensures GenerateVideo(v, x, up1, env) == GenerateVideo(v, x, up2, env)
      == "Error: Unable to generate video. Details: " + NoImageSupport
  {
  }

  /**
   * What a submitted body carries follows the variant's flags: a CFG scale
   * exactly when supported, a negative prompt exactly when supported and
   * non-empty, a tail image only alongside a main image; the duration is
   * passed through as converted.
   */
  lemma SubmittedKeysFollowVariant(v: Variant, x: Inputs, duration: Json, up: ImageRef -> Option<string>)
    requires Route(v, x, BaseArgs(v, x, duration), up).SubmitVideo?
    ensures var args := Route(v, x, BaseArgs(v, x, duration), up).req.args;
      && args.Keys <= {"prompt", "duration", "aspect_ratio", "cfg_scale", "negative_prompt", "image_url", "tail_image_url"}
      && ("cfg_scale" in args <==> v.supportsCfgScale)
      && ("negative_prompt" in args <==> v.supportsNegativePrompt && x.negativePrompt != "")
      && ("tail_image_url" in args <==> x.image.Some? && v.supportsTail && x.tailImage.Some?)
      && args["duration"] == duration
  {
  }

  /** A tail image without a main image is ignored entirely. */
  lemma TailWithoutImageIgnored(v: Variant, x: Inputs, up: ImageRef -> Option<string>)
    requires x.image.None?
    ensures Plan(v, x, up) == Plan(v, x.(tailImage := None), up)
  {
  }

  /** A failed upload leaves the remote untouched: the output does not depend on it. */
  lemma FailedUploadSubmitsNothing(v: Variant, x: Inputs, up: ImageRef -> Option<string>, env1: Env, env2: Env)
    requires x.image.Some? && Upload(up, x.image.value).None?
    ensures GenerateVideo(v, x, up, env1) == GenerateVideo(v, x, up, env2)
  {
  }

  /** Every shipped variant is configured for both text and image input. */
  lemma ShippedVariantsConfigured()
    ensures forall v :: v in {Standard, Pro10, Pro16, Master, Master21, Turbo25Pro} ==>
      Configured(v.endpointText) && Configured(v.endpointImage)
  {
  }

  /** A duration written as a decimal integer is sent as that integer. */
  lemma DecimalDurationSentAsInteger(n: int)
    ensures DurationArg(IntToDecimal(n)) == Int(n)
  {
    ParseIntOfDecimal(n);
  }

  /** The duration choices "5" and "10" are sent as integers. */
  lemma DurationsSentAsIntegers()
    ensures DurationArg("5") == Int(5) && DurationArg("10") == Int(10)
  {
    DecimalDurationSentAsInteger(5);
    DecimalDurationSentAsInteger(10);
    FiveAndTenInDecimal();
  }

  lemma FiveAndTenInDecimal()
    ensures IntToDecimal(5) == "5" && IntToDecimal(10) == "10"
  {
    assert DigitChar(5) == '5' && DigitChar(1) == '1' && DigitChar(0) == '0';
    assert NatToDecimal(10) == NatToDecimal(1) + [DigitChar(0)];
  }
}

=== FILE: luma.dfy ===
/**
 * The Luma Dream Machine video node: text-to-video unless the mode asks for
 * image-to-video, which then needs a start image and may take an end image.
 */
module Luma {
  import opened Values
  import opened ImageUtils
  import opened ApiHandler

  const ModelName: string := "luma-dream-machine"
  const ImageEndpoint: string := "fal-ai/luma-dream-machine/ray-2/image-to-video"
  const TextEndpoint: string := "fal-ai/luma-dream-machine/ray-2"
  const ImageToVideoMode: string := "image-to-video"

  const ImageRequired: string := "Image is required for image-to-video mode"
  const ImageUploadFailed: string := "Failed to upload image"
  const EndUploadFailed: string := "Failed to upload end image"

  datatype Inputs = Inputs(
    prompt: string,
    mode: string,
    aspectRatio: string,
    image: Option<ImageRef>,
    endImage: Option<ImageRef>,
    loop: bool)

  function BaseArgs(x: Inputs): (a: map<string, Json>)
    ensures a.Keys == {"prompt", "aspect_ratio", "loop"}
    ensures a["prompt"] == JStr(x.prompt) && a["aspect_ratio"] == JStr(x.aspectRatio) && a["loop"] == JBool(x.loop)
  {
    map["prompt" := JStr(x.prompt), "aspect_ratio" := JStr(x.aspectRatio), "loop" := JBool(x.loop)]
  }

  /**
   * Any mode other than the exact text "image-to-video" is text-to-video,
   * and the images are then ignored.
   */
  function Plan(x: Inputs, up: ImageRef -> Option<string>): (p: VideoPlan)
    ensures p.RefuseVideo? <==>
      && x.mode == ImageToVideoMode
      && (|| x.image.None? || Upload(up, x.image.value).None?
          || (x.endImage.Some? && Upload(up, x.endImage.value).None?))
    ensures x.mode != ImageToVideoMode ==> p == SubmitVideo(Request(ModelName, TextEndpoint, BaseArgs(x)))
    ensures x.mode == ImageToVideoMode && x.image.None? ==> p == RefuseVideo(ImageRequired)
    ensures x.mode == ImageToVideoMode && x.image.Some? && Upload(up, x.image.value).None?
      ==> p == RefuseVideo(ImageUploadFailed)
    ensures x.mode == ImageToVideoMode && x.image.Some? && Upload(up, x.image.value).Some?
      && x.endImage.Some? && Upload(up, x.endImage.value).None?
      ==> p == RefuseVideo(EndUploadFailed)
    ensures p.SubmitVideo? && x.mode == ImageToVideoMode ==>
      && p.req.model == ModelName && p.req.endpoint == ImageEndpoint
      && p.req.args.Keys == BaseArgs(x).Keys + {"image_url"} + (if x.endImage.Some? then {"end_image_url"} else {})
      && (forall k :: k in BaseArgs(x) ==> p.req.args[k] == BaseArgs(x)[k])
      && p.req.args["image_url"] == JStr(Upload(up, x.image.value).value)
      && (x.endImage.Some? ==> p.req.args["end_image_url"] == JStr(Upload(up, x.endImage.value).value))
  {
    var args := BaseArgs(x);
    if x.mode == ImageToVideoMode then
      if x.image.None? then RefuseVideo(ImageRequired)
      else
        match Upload(up, x.image.value)
        case None => RefuseVideo(ImageUploadFailed)
        case Some(url) =>
          var args := args["image_url" := JStr(url)];
          if x.endImage.Some? then
            match Upload(up, x.endImage.value)
            case None => RefuseVideo(EndUploadFailed)
            case Some(endUrl) => SubmitVideo(Request(ModelName, ImageEndpoint, args["end_image_url" := JStr(endUrl)]))
          else SubmitVideo(Request(ModelName, ImageEndpoint, args))
    else SubmitVideo(Request(ModelName, TextEndpoint, args))
  }

  function GenerateVideo(x: Inputs, up: ImageRef -> Option<string>, env: Env): string {
    RunVideoPlan(Plan(x, up), env)
  }

  /** In text mode the images neither reach the request nor get uploaded. */
  lemma TextModeIgnoresImages(x: Inputs, up1: ImageRef -> Option<string>, up2: ImageRef -> Option<string>)
    requires x.mode != ImageToVideoMode
    ensures Plan(x, up1) == Plan(x.(image := None, endImage := None), up2)
  {
  }

  /** Every refusal happens before the remote is involved. */
  lemma RefusalIgnoresRemote(x: Inputs, up: ImageRef -> Option<string>, env1: Env, env2: Env)
    requires Plan(x, up).RefuseVideo?
    ensures GenerateVideo(x, up, env1) == GenerateVideo(x, up, env2)
    ensures GenerateVideo(x, up, env1) == VideoErrorText(Plan(x, up).message)
  {
  }

  /** A refusal happens only in image-to-video mode. */
  lemma OnlyImageModeRefuses(x: Inputs, up: ImageRef -> Option<string>)
    ensures Plan(x, up).RefuseVideo? ==>
      x.mode == ImageToVideoMode && Plan(x, up).message in {ImageRequired, ImageUploadFailed, EndUploadFailed}
  {
  }
}

=== FILE: nanobanana.dfy ===
/**
 * The Nano Banana image nodes: plain generation, and editing from up to four
 * input pictures that are all uploaded before anything is submitted.
 */
module NanoBanana {
  import opened Values
  import opened ImageUtils
  import opened ApiHandler
  import opened ResultProcessor

  const GenerateEndpoint: string := "fal-ai/nano-banana"
  const GenerateModel: string := "Nano Banana"
  const EditEndpoint: string := "fal-ai/nano-banana/edit"
  const EditModel: string := "Nano Banana Edit"

  function CommonArgs(prompt: string, numImages: int, outputFormat: string): (a: map<string, Json>)
    ensures a.Keys == {"prompt", "num_images", "output_format"}
    ensures a["prompt"] == JStr(prompt) && a["num_images"] == Int(numImages) && a["output_format"] == JStr(outputFormat)
  {
    map["prompt" := JStr(prompt), "num_images" := Int(numImages), "output_format" := JStr(outputFormat)]
  }

  /** Generation always submits, with exactly the three settings. */
  function GeneratePlan(prompt: string, numImages: int, outputFormat: string): (p: ImagePlan)
    ensures p.SubmitImage? && p.req.model == GenerateModel && p.req.endpoint == GenerateEndpoint
    ensures p.req.args.Keys == {"prompt", "num_images", "output_format"}
    ensures p.req.args["prompt"] == JStr(prompt) && p.req.args["num_images"] == Int(numImages)
    ensures p.req.args["output_format"] == JStr(outputFormat)
  {
    SubmitImage(Request(GenerateModel, GenerateEndpoint, CommonArgs(prompt, numImages, outputFormat)))
  }

  /**
   * Editing: the four slots upload in order, skipping empty ones; any failed
   * upload, or no image at all, gives the placeholder without a job.
   */
  function EditPlan(prompt: string, images: seq<Option<ImageRef>>, numImages: int, outputFormat: string,
                    up: ImageRef -> Option<string>): (p: ImagePlan)
    requires |images| == 4
    ensures p.BlankWithoutJob? <==> !AllUpload(up, images) || CountPresent(images) == 0
    ensures p.SubmitImage? ==>
      && p.req.model == EditModel && p.req.endpoint == EditEndpoint
      && p.req.args.Keys == {"prompt", "num_images", "output_format", "image_urls"}
      && p.req.args["prompt"] == JStr(prompt) && p.req.args["num_images"] == Int(numImages)
      && p.req.args["output_format"] == JStr(outputFormat)
      && p.req.args["image_urls"].JList?
      && |p.req.args["image_urls"].items| == CountPresent(images)
      && (forall i :: 0 <= i < 4 && images[i].Some? ==>
            && CountPresent(images[..i]) < |p.req.args["image_urls"].items|
            && p.req.args["image_urls"].items[CountPresent(images[..i])] == JStr(Upload(up, images[i].value).value))
  {
    match UploadAll(up, images)
    case None => BlankWithoutJob
    case Some(urls) =>
      if urls == [] then BlankWithoutJob
      else
        SubmitImage(Request(EditModel, EditEndpoint, CommonArgs(prompt, numImages, outputFormat)["image_urls" := UrlList(urls)]))
  }

  function Edit(prompt: string, images: seq<Option<ImageRef>>, numImages: int, outputFormat: string,
                up: ImageRef -> Option<string>, env: Env): ImageOutput
    requires |images| == 4
  {
    RunImagePlan(EditPlan(prompt, images, numImages, outputFormat, up), env)
  }

  /** A failed upload in any slot means no job: the remote cannot influence the result. */
  lemma FailedEditUploadGivesBlank(prompt: string, images: seq<Option<ImageRef>>, numImages: int,
                                   outputFormat: string, up: ImageRef -> Option<string>, env: Env, i: nat)
    requires |images| == 4 && i < 4 && images[i].Some? && Upload(up, images[i].value).None?
    ensures Edit(prompt, images, numImages, outputFormat, up, env) == BlankImage()
  {
  }

  /** Only the second slot filled: the request carries that single URL. */
  lemma SingleLaterSlot(prompt: string, img: ImageRef, up: ImageRef -> Option<string>)
    requires Upload(up, img).Some?
    ensures var p := EditPlan(prompt, [None, Some(img), None, None], 1, "png", up);
      p.SubmitImage? && p.req.args["image_urls"] == JList([JStr(Upload(up, img).value)])
  {
    var images := [None, Some(img), None, None];
    assert images[..1] == [None];
    assert images[3..] == [None] && images[3..][1..] == [];
    assert CountPresent(images[3..]) == 0;
    assert images[2..][1..] == images[3..];
    assert CountPresent(images[2..]) == 0;
    assert images[1..][1..] == images[2..];
    assert CountPresent(images[1..]) == 1;
    assert CountPresent(images) == 1;
  }
}

=== FILE: result_processor.dfy ===
/**
 * Turning an image job's payload into images: which URLs the payload names,
 * in which order, and the fixed placeholder used whenever that fails.
 * Downloading and decoding is an oracle `fetch` giving, for a URL, the
 * dimensions of the picture it decodes to (None when the download or the
 * decoding raises); pixels themselves are not modelled.
 */
module ResultProcessor {
  import opened Values

  /** The width and height of a decoded picture. */
  datatype Size = Size(width: nat, height: nat)

  /**
   * What an image node hands back to the host: a batch holding the picture
   * behind each URL, stacked in the order given, all of one size, or a
   * solid placeholder.
   */
  datatype ImageOutput =
    | Batch(urls: seq<string>, size: Size)
    | Placeholder(width: nat, height: nat, count: nat, level: real)

  /** The fallback picture: one 512 by 512 image, every channel 0.0 (black). */
  function BlankImage(): (b: ImageOutput)
    ensures b.Placeholder? && b.width == 512 && b.height == 512 && b.count == 1 && b.level == 0.0
  {
    Placeholder(512, 512, 1, 0.0)
  }

  /** An entry naming an image: a dict's `url` value (whatever it is), or a bare string. */
  function EntryUrl(item: Json): Option<Json> {
    if Has(item, "url") then Some(item.fields["url"])
    else if item.JStr? then Some(item)
    else None
  }

  /** How many of the entries name an image; counted from the back so prefixes extend by one. */
  function CountNamed(items: seq<Json>): (n: nat)
    ensures n <= |items|
  {
    if items == [] then 0
    else CountNamed(items[..|items| - 1]) + (if EntryUrl(items[|items| - 1]).Some? then 1 else 0)
  }

  /**
   * The URLs named by a list of entries, in list order and with repeats;
   * other entries are skipped. The entry at `k` lands at its rank among the
   * naming entries before it.
   */
  function EntryUrls(items: seq<Json>): (r: seq<Json>)
    ensures |r| == CountNamed(items)
    ensures forall k {:trigger EntryUrl(items[k])} :: 0 <= k < |items| && EntryUrl(items[k]).Some? ==>
      CountNamed(items[..k]) < |r| && r[CountNamed(items[..k])] == EntryUrl(items[k]).value
    decreases |items|
  {
    if items == [] then []
    else
      var n := |items| - 1;
      var init := items[..n];
      var rest := EntryUrls(init);
      var r := if EntryUrl(items[n]).Some? then rest + [EntryUrl(items[n]).value] else rest;
      assert items[..n] == init;
      assert forall k {:trigger EntryUrl(items[k])} :: 0 <= k < |items| && EntryUrl(items[k]).Some? ==>
        CountNamed(items[..k]) < |r| && r[CountNamed(items[..k])] == EntryUrl(items[k]).value
      by {
        forall k | 0 <= k < n && EntryUrl(items[k]).Some?
          ensures CountNamed(items[..k]) < |r| && r[CountNamed(items[..k])] == EntryUrl(items[k]).value
        {
          assert init[..k] == items[..k] && init[k] == items[k];
        }
      }
      r
  }

  /** A value is collected exactly when some entry names it. */
  lemma {:induction false} EntryUrlsMembers(items: seq<Json>)
    ensures forall u :: u in EntryUrls(items) <==> exists k :: 0 <= k < |items| && EntryUrl(items[k]) == Some(u)
    decreases |items|
  {
    if items != [] {
      var n := |items| - 1;
      var init := items[..n];
      EntryUrlsMembers(init);
      assert items[..n] == init;
      assert forall k :: 0 <= k < n ==> init[k] == items[k];
    }
  }

  /** Rule 1: a truthy `images`; a lone dict counts as a one-element list. */
  function ImagesRule(result: Json): seq<Json> {
    var c := GetOrNull(result, "images");
    if !Truthy(c) then []
    else match c
      case JObj(_) => EntryUrls([c])
      case JList(items) => EntryUrls(items)
      case _ => []
  }

  /** Rule 2: a single `image` entry. */
  function ImageRule(result: Json): seq<Json> {
    if !Has(result, "image") then []
    else match EntryUrl(result.fields["image"])
      case Some(u) => [u]
      case None => []
  }

  /** Rule 3: `output` as a dict with `url`, a list of entries, or a bare string. */
  function OutputRule(result: Json): seq<Json> {
    if !Has(result, "output") then []
    else match result.fields["output"]
      case JList(items) => EntryUrls(items)
      case output =>
        match EntryUrl(output)
        case Some(u) => [u]
        case None => []
  }

  /**
   * The raw candidates of the first rule that yields any. A rule "yields"
   * as soon as it finds an entry, even one that later proves unusable.
   */
  function ImageCandidates(result: Json): seq<Json> {
    if !result.JObj? then []
    else if ImagesRule(result) != [] then ImagesRule(result)
    else if ImageRule(result) != [] then ImageRule(result)
    else OutputRule(result)
  }

  predicate IsUrl(j: Json) {
    j.JStr? && j.s != ""
  }

  /**
   * The non-empty strings among the candidates, each once, in the order of
   * their first occurrence.
   */
  function UniqueUrls(cands: seq<Json>): (r: seq<string>)
    ensures forall i :: 0 <= i < |r| ==> r[i] != "" && JStr(r[i]) in cands
    ensures forall k :: 0 <= k < |cands| && IsUrl(cands[k]) ==> cands[k].s in r
    ensures forall i, j :: 0 <= i < j < |r| ==> r[i] != r[j]
    decreases |cands|
  {
    if cands == [] then []
    else
      var prefix := cands[..|cands| - 1];
      var last := cands[|cands| - 1];
      var r := UniqueUrls(prefix);
      assert forall k :: 0 <= k < |prefix| ==> prefix[k] == cands[k];
      if IsUrl(last) && last.s !in r then r + [last.s] else r
  }

  /** Each URL of `r` occurs among `cands` before any occurrence of a URL listed after it. */
  predicate FirstOccurrenceOrder(r: seq<string>, cands: seq<Json>) {
    forall i, j, k :: 0 <= i < j < |r| && 0 <= k < |cands| && cands[k] == JStr(r[j]) ==> JStr(r[i]) in cands[..k]
  }

  /**
   * The URLs keep the order of their first occurrence: whenever a URL comes
   * after another in the result, every occurrence of the later one among the
   * candidates is preceded by an occurrence of the earlier one.
   */
  lemma {:induction false} UniqueUrlsFirstOccurrenceOrder(cands: seq<Json>)
    ensures FirstOccurrenceOrder(UniqueUrls(cands), cands)
    decreases |cands|
  {
    if cands != [] {
      var prefix := cands[..|cands| - 1];
      var last := cands[|cands| - 1];
      var r := UniqueUrls(cands);
      var rp := UniqueUrls(prefix);
      UniqueUrlsFirstOccurrenceOrder(prefix);
      assert FirstOccurrenceOrder(rp, prefix);
      forall i, j, k | 0 <= i < j < |r| && 0 <= k < |cands| && cands[k] == JStr(r[j])
        ensures JStr(r[i]) in cands[..k]
      {
        assert r[i] == rp[i];
        if k < |prefix| {
          assert prefix[k] == cands[k] && prefix[..k] == cands[..k];
          assert IsUrl(prefix[k]) && prefix[k].s in rp;
          assert j < |rp|;
          assert r[j] == rp[j] && prefix[k] == JStr(rp[j]);
          assert JStr(rp[i]) in prefix[..k];
        } else {
          assert JStr(rp[i]) in prefix;
          assert cands[..k] == prefix;
        }
      }
    }
  }

  /**
   * The deduplication loop: walk the candidates once with a `seen` set and
   * keep each non-empty string the first time it shows up.
   */
  method DeduplicateUrls(cands: seq<Json>) returns (unique: seq<string>)
    ensures unique == UniqueUrls(cands)
    ensures forall i :: 0 <= i < |unique| ==> unique[i] != ""
  {
    var seen: set<string> := {};
    unique := [];
    var i := 0;
    while i < |cands|
      invariant 0 <= i <= |cands|
      invariant unique == UniqueUrls(cands[..i])
      invariant seen == set u | u in unique
    {
      var c := cands[i];
      assert cands[..i + 1][..i] == cands[..i];
      if c.JStr? && c.s != "" && c.s !in seen {
        unique := unique + [c.s];
        seen := seen + {c.s};
      }
      i := i + 1;
    }
    assert cands[..|cands|] == cands;
  }

  function ExtractImageUrls(result: Json): seq<string> {
    UniqueUrls(ImageCandidates(result))
  }

  /** Every URL decodes, and all the pictures have one size, so that they stack. */
  predicate Stackable(urls: seq<string>, fetch: string -> Option<Size>) {
    && (forall i :: 0 <= i < |urls| ==> fetch(urls[i]).Some?)
    && (forall i, j :: 0 <= i < |urls| && 0 <= j < |urls| ==> fetch(urls[i]) == fetch(urls[j]))
  }

  /**
   * Download every URL and stack the pictures; no URL, a URL that does not
   * decode, or pictures of different sizes give the placeholder instead.
   */
  function ProcessImageResult(result: Json, fetch: string -> Option<Size>): (out: ImageOutput)
    ensures out.Batch? <==> ExtractImageUrls(result) != [] && Stackable(ExtractImageUrls(result), fetch)
    ensures out.Batch? ==> out.urls == ExtractImageUrls(result) && |out.urls| > 0
    ensures out.Batch? ==> forall i :: 0 <= i < |out.urls| ==> fetch(out.urls[i]) == Some(out.size)
    ensures !out.Batch? ==> out == BlankImage()
  {
    var urls := ExtractImageUrls(result);
    if urls != [] && Stackable(urls, fetch) then Batch(urls, fetch(urls[0]).value) else BlankImage()
  }

  /** Two pictures of different sizes cannot be stacked, so the whole result is the placeholder. */
  lemma MixedSizesGiveBlank(result: Json, fetch: string -> Option<Size>, i: nat, j: nat)
    requires i < |ExtractImageUrls(result)| && j < |ExtractImageUrls(result)|
    requires fetch(ExtractImageUrls(result)[i]) != fetch(ExtractImageUrls(result)[j])
    ensures ProcessImageResult(result, fetch) == BlankImage()
  {
  }

  // ---------------------------------------------------------------------
  // Rule priority

  /** Entries under a truthy `images` win over `image` and `output`. */
  lemma ImagesRuleWins(result: Json)
    requires result.JObj? && ImagesRule(result) != []
    ensures ExtractImageUrls(result) == UniqueUrls(ImagesRule(result))
  {
  }

  /** `image` is consulted only when `images` yields no entry at all. */
  lemma ImageRuleSecond(result: Json)
    requires result.JObj? && ImagesRule(result) == [] && ImageRule(result) != []
    ensures ExtractImageUrls(result) == UniqueUrls(ImageRule(result))
  {
  }

  /** Falsy `images` values (None, "", [], {}) are the same as a missing key. */
  lemma FalsyImagesIgnored(fields: map<string, Json>, v: Json)
    requires !Truthy(v)
    ensures ExtractImageUrls(JObj(fields["images" := v])) == ExtractImageUrls(JObj(fields - {"images"}))
  {
    var a := JObj(fields["images" := v]);
    var b := JObj(fields - {"images"});
    assert ImagesRule(a) == [] && ImagesRule(b) == [];
    assert Has(a, "image") == Has(b, "image") && GetOrNull(a, "image") == GetOrNull(b, "image");
    assert ImageRule(a) == ImageRule(b);
    assert Has(a, "output") == Has(b, "output") && GetOrNull(a, "output") == GetOrNull(b, "output");
    assert OutputRule(a) == OutputRule(b);
  }

  /** A string `images` value is neither a list nor a dict and so names nothing. */
  lemma StringImagesIgnored(fields: map<string, Json>, s: string)
    ensures ImagesRule(JObj(fields["images" := JStr(s)])) == []
  {
  }

  // ---------------------------------------------------------------------
  // Worked payloads

  lemma UniqueUrlsSnoc(cands: seq<Json>, x: Json)
    ensures UniqueUrls(cands + [x]) ==
      UniqueUrls(cands) + (if IsUrl(x) && x.s !in UniqueUrls(cands) then [x.s] else [])
  {
    assert (cands + [x])[..|cands|] == cands;
  }

  lemma RepeatedEntries(a: Json, b: Json)
    requires a == JObj(map["url" := JStr("a")]) && b == JObj(map["url" := JStr("b")])
    ensures EntryUrls([a, b, a]) == [JStr("a"), JStr("b"), JStr("a")]
  {
    var items := [a, b, a];
    assert EntryUrl(a) == Some(JStr("a")) && EntryUrl(b) == Some(JStr("b"));
    assert items[..0] == [] && items[..1] == [a] && items[..2] == [a, b];
    assert [a][..0] == [] && [a, b][..1] == [a];
    assert CountNamed([a]) == 1 && CountNamed([a, b]) == 2 && CountNamed(items) == 3;
    var r := EntryUrls(items);
    assert r[0] == JStr("a") && r[1] == JStr("b") && r[2] == JStr("a");
  }

  lemma RepeatedUrlKeptOnce()
    ensures UniqueUrls([JStr("a"), JStr("b"), JStr("a")]) == ["a", "b"]
  {
    UniqueUrlsSnoc([], JStr("a"));
    assert [] + [JStr("a")] == [JStr("a")];
    UniqueUrlsSnoc([JStr("a")], JStr("b"));
    assert [JStr("a")] + [JStr("b")] == [JStr("a"), JStr("b")];
    UniqueUrlsSnoc([JStr("a"), JStr("b")], JStr("a"));
    assert [JStr("a"), JStr("b")] + [JStr("a")] == [JStr("a"), JStr("b"), JStr("a")];
  }

  lemma DuplicatesCollapse()
    ensures ExtractImageUrls(JObj(map["images" := JList([
      JObj(map["url" := JStr("a")]), JObj(map["url" := JStr("b")]), JObj(map["url" := JStr("a")])])]))
      == ["a", "b"]
  {
    var a, b := JObj(map["url" := JStr("a")]), JObj(map["url" := JStr("b")]);
    RepeatedEntries(a, b);
    RepeatedUrlKeptOnce();
    var result := JObj(map["images" := JList([a, b, a])]);
    assert ImagesRule(result) == [JStr("a"), JStr("b"), JStr("a")];
  }

  lemma ImagesBeatImage()
    ensures ExtractImageUrls(JObj(map["images" := JList([JObj(map["url" := JStr("x")])]),
                                      "image" := JObj(map["url" := JStr("y")])])) == ["x"]
  {
    var items := [JObj(map["url" := JStr("x")])];
    var result := JObj(map["images" := JList(items), "image" := JObj(map["url" := JStr("y")])]);
    assert items[..0] == [];
    assert EntryUrls(items) == [JStr("x")];
    assert ImagesRule(result) == [JStr("x")];
    assert [JStr("x")][..0] == [];
  }

  /**
   * An `images` entry whose `url` is null still counts as found, so `image`
   * is not consulted and the payload yields no URL at all.
   */
  lemma NullUrlBlocksFallback()
    ensures ExtractImageUrls(JObj(map["images" := JList([JObj(map["url" := JNull])]),
                                      "image" := JStr("y")])) == []
  {
    var items := [JObj(map["url" := JNull])];
    var result := JObj(map["images" := JList(items), "image" := JStr("y")]);
    assert items[..0] == [];
    assert EntryUrls(items) == [JNull];
    assert ImagesRule(result) == [JNull];
    assert [JNull][..0] == [];
  }
}

=== FILE: values.dfy ===
/**
 * Loosely typed JSON payloads as the Python code sees them (dicts, lists,
 * strings, numbers, booleans and None), with the few pieces of Python's
 * builtin behaviour the job layer relies on: truthiness, `dict.get`,
 * `str()`, `str.strip()`, `str.join` and `int()` on strings.
 */
module Values {

  datatype Option<+T> = None | Some(value: T)

  /** The outcome of a call that either returns a value or raises. */
  datatype Result<+T, +E> = Ok(value: T) | Err(error: E)

  /** A decoded JSON value; `JObj` is a Python dict with string keys. */
  datatype Json =
    | JNull
    | JBool(b: bool)
    | JNum(n: real)
    | JStr(s: string)
    | JList(items: seq<Json>)
    | JObj(fields: map<string, Json>)

  /** Python truthiness: None, False, 0, "", [] and {} are falsy. */
  predicate Truthy(j: Json) {
    match j
    case JNull => false
    case JBool(b) => b
    case JNum(n) => n != 0.0
    case JStr(s) => s != ""
    case JList(items) => |items| > 0
    case JObj(fields) => |fields| > 0
  }

  /** `isinstance(j, dict) and key in j` */
  predicate Has(j: Json, key: string) {
    j.JObj? && key in j.fields
  }

  /** `j.get(key)` on a dict; None when the key is missing or `j` is no dict. */
  function Get(j: Json, key: string): (r: Option<Json>)
    ensures r.Some? <==> Has(j, key)
    ensures r.Some? ==> r.value == j.fields[key]
  {
    if Has(j, key) then Some(j.fields[key]) else None
  }

  /** `j.get(key)` where a missing key reads as None. */
  function GetOrNull(j: Json, key: string): Json {
    if Has(j, key) then j.fields[key] else JNull
  }

  function Int(n: int): Json {
    JNum(n as real)
  }

  // ---------------------------------------------------------------------
  // Decimal integers

  function DigitChar(d: nat): char
    requires d < 10
  {
    "0123456789"[d]
  }

  predicate IsDigit(c: char) {
    '0' <= c <= '9'
  }

  function DigitValue(c: char): nat
    requires IsDigit(c)
  {
    (c as int - '0' as int) as nat
  }

  /** Decimal rendering of a natural number, most significant digit first. */
  function NatToDecimal(n: nat): (r: string)
    ensures |r| > 0
    ensures forall i :: 0 <= i < |r| ==> IsDigit(r[i])
  {
    if n < 10 then [DigitChar(n)] else NatToDecimal(n / 10) + [DigitChar(n % 10)]
  }

  /** Python's `str()` of an int. */
  function IntToDecimal(n: int): string {
    if n < 0 then "-" + NatToDecimal(-n) else NatToDecimal(n)
  }

  /** Value of a non-empty run of decimal digits. */
  function DigitsValue(ds: string): nat
    requires forall i :: 0 <= i < |ds| ==> IsDigit(ds[i])
  {
    if ds == [] then 0 else DigitsValue(ds[..|ds| - 1]) * 10 + DigitValue(ds[|ds| - 1])
  }

  // ---------------------------------------------------------------------
  // str(), repr()

  /** Python's `str()` of a payload value. */
  function Show(j: Json): string {
    match j
    case JStr(s) => s
    case _ => Repr(j)
  }

  /** Python's `repr()`, used for values nested inside a list. */
  function Repr(j: Json): string
    decreases j
  {
    match j
    case JNull => "None"
    case JBool(b) => if b then "True" else "False"
    case JNum(n) => if n == n.Floor as real then IntToDecimal(n.Floor) else "<float>"
    case JStr(s) => "'" + s + "'"
    case JList(items) => "[" + Join(", ", seq(|items|, i requires 0 <= i < |items| => Repr(items[i]))) + "]"
    case JObj(_) => "{...}"
  }

  /** `sep.join(parts)` */
  function Join(sep: string, parts: seq<string>): (r: string)
    ensures |parts| == 1 ==> r == parts[0]
  {
    if |parts| == 0 then ""
    else if |parts| == 1 then parts[0]
    else parts[0] + sep + Join(sep, parts[1..])
  }

  /** Where part `k` begins in `sep.join(parts)`: every earlier part, each followed by `sep`. */
  function JoinOffset(sep: string, parts: seq<string>, k: nat): nat
    requires k <= |parts|
  {
    if k == 0 then 0 else JoinOffset(sep, parts, k - 1) + |parts[k - 1]| + |sep|
  }

  lemma {:induction false} JoinOffsetShift(sep: string, parts: seq<string>, k: nat)
    requires 0 < k <= |parts|
    ensures JoinOffset(sep, parts, k) == |parts[0]| + |sep| + JoinOffset(sep, parts[1..], k - 1)
  {
    if k > 1 {
      JoinOffsetShift(sep, parts, k - 1);
      assert parts[1..][k - 2] == parts[k - 1];
    }
  }

  /** A slice taken past a prefix `a` of `a + b` is the same slice of `b`. */
  lemma SliceAfterPrefix(a: string, b: string, i: nat, j: nat)
    requires i <= j <= |b|
    ensures (a + b)[|a| + i..|a| + j] == b[i..j]
  {
    assert forall m :: 0 <= m < j - i ==> (a + b)[|a| + i..|a| + j][m] == b[i..j][m];
  }

  lemma PrefixOfAppend(a: string, b: string)
    ensures (a + b)[0..|a|] == a
  {
    assert forall m :: 0 <= m < |a| ==> (a + b)[0..|a|][m] == a[m];
  }

  lemma {:induction false} JoinLength(sep: string, parts: seq<string>)
    requires |parts| > 0
    ensures |Join(sep, parts)| == JoinOffset(sep, parts, |parts| - 1) + |parts[|parts| - 1]|
    decreases |parts|
  {
    if |parts| > 1 {
      var tail := parts[1..];
      JoinLength(sep, tail);
      JoinOffsetShift(sep, parts, |parts| - 1);
      assert tail[|tail| - 1] == parts[|parts| - 1];
      assert |Join(sep, parts)| == |parts[0]| + |sep| + |Join(sep, tail)|;
    } else {
      assert Join(sep, parts) == parts[0];
    }
  }

  lemma {:induction false} JoinPartAt(sep: string, parts: seq<string>, k: nat)
    requires k < |parts|
    ensures var r, o := Join(sep, parts), JoinOffset(sep, parts, k);
      o + |parts[k]| <= |r| && r[o..o + |parts[k]|] == parts[k]
    decreases |parts|
  {
    if |parts| == 1 {
      assert Join(sep, parts) == parts[0];
      assert JoinOffset(sep, parts, 0) == 0;
    } else {
      var tail := parts[1..];
      var rest := Join(sep, tail);
      assert Join(sep, parts) == parts[0] + (sep + rest);
      if k == 0 {
        PrefixOfAppend(parts[0], sep + rest);
      } else {
        var o := JoinOffset(sep, tail, k - 1);
        JoinPartAt(sep, tail, k - 1);
        JoinOffsetShift(sep, parts, k);
        assert tail[k - 1] == parts[k];
        assert Join(sep, parts) == (parts[0] + sep) + rest;
        SliceAfterPrefix(parts[0] + sep, rest, o, o + |parts[k]|);
      }
    }
  }

  lemma {:induction false} JoinSepAfter(sep: string, parts: seq<string>, k: nat)
    requires k + 1 < |parts|
    ensures var r, o := Join(sep, parts), JoinOffset(sep, parts, k) + |parts[k]|;
      o + |sep| <= |r| && r[o..o + |sep|] == sep
    decreases |parts|
  {
    var tail := parts[1..];
    var rest := Join(sep, tail);
    if k > 0 {
      var o := JoinOffset(sep, tail, k - 1) + |parts[k]|;
      JoinSepAfter(sep, tail, k - 1);
      JoinOffsetShift(sep, parts, k);
      assert tail[k - 1] == parts[k];
      assert Join(sep, parts) == (parts[0] + sep) + rest;
      SliceAfterPrefix(parts[0] + sep, rest, o, o + |sep|);
    }
  }

  /** Each part of `parts` sits in `r` at its join offset. */
  predicate PartsInPlace(sep: string, parts: seq<string>, r: string) {
    forall k :: 0 <= k < |parts| ==>
      JoinOffset(sep, parts, k) + |parts[k]| <= |r|
      && r[JoinOffset(sep, parts, k)..JoinOffset(sep, parts, k) + |parts[k]|] == parts[k]
  }

  /** Each part but the last is followed in `r` by `sep`. */
  predicate SeparatorsInPlace(sep: string, parts: seq<string>, r: string) {
    forall k :: 0 <= k < |parts| - 1 ==>
      JoinOffset(sep, parts, k) + |parts[k]| + |sep| <= |r|
      && r[JoinOffset(sep, parts, k) + |parts[k]|..JoinOffset(sep, parts, k) + |parts[k]| + |sep|] == sep
  }

  /**
   * `sep.join(parts)` is the parts in order with one `sep` after each part
   * but the last, and nothing else.
   */
  lemma JoinLayout(sep: string, parts: seq<string>)
    requires |parts| > 0
    ensures |Join(sep, parts)| == JoinOffset(sep, parts, |parts| - 1) + |parts[|parts| - 1]|
    ensures PartsInPlace(sep, parts, Join(sep, parts))
    ensures SeparatorsInPlace(sep, parts, Join(sep, parts))
  {
    var r := Join(sep, parts);
    JoinLength(sep, parts);
    assert PartsInPlace(sep, parts, r) by {
      forall k | 0 <= k < |parts|
        ensures JoinOffset(sep, parts, k) + |parts[k]| <= |r|
        ensures r[JoinOffset(sep, parts, k)..JoinOffset(sep, parts, k) + |parts[k]|] == parts[k]
      {
        JoinPartAt(sep, parts, k);
      }
    }
    assert SeparatorsInPlace(sep, parts, r) by {
      forall k | 0 <= k < |parts| - 1
        ensures JoinOffset(sep, parts, k) + |parts[k]| + |sep| <= |r|
        ensures r[JoinOffset(sep, parts, k) + |parts[k]|..JoinOffset(sep, parts, k) + |parts[k]| + |sep|] == sep
      {
        JoinSepAfter(sep, parts, k);
      }
    }
  }

  /** `str()` of each item, in order. */
  function ShowEach(items: seq<Json>): (parts: seq<string>)
    ensures |parts| == |items|
    ensures forall i :: 0 <= i < |items| ==> parts[i] == Show(items[i])
  {
    seq(|items|, i requires 0 <= i < |items| => Show(items[i]))
  }

  // ---------------------------------------------------------------------
  // Whitespace and str.strip()

  /** The characters for which Python's `str.isspace()` holds. */
  predicate IsSpace(c: char) {
    || c == ' ' || c == '\t' || c == '\n' || c == '\r' || c == '\U{000B}' || c == '\U{000C}'
    || ('\U{001C}' <= c <= '\U{001F}') || c == '\U{0085}' || c == '\U{00A0}' || c == '\U{1680}'
    || ('\U{2000}' <= c <= '\U{200A}') || c == '\U{2028}' || c == '\U{2029}' || c == '\U{202F}'
    || c == '\U{205F}' || c == '\U{3000}'
  }

  function StripLeft(s: string): (r: string)
    ensures |r| <= |s| && r == s[|s| - |r|..]
    ensures forall i :: 0 <= i < |s| - |r| ==> IsSpace(s[i])
    ensures r == [] || !IsSpace(r[0])
  {
    if s != [] && IsSpace(s[0]) then StripLeft(s[1..]) else s
  }

  function StripRight(s: string): (r: string)
    ensures |r| <= |s| && r == s[..|r|]
    ensures forall i :: |r| <= i < |s| ==> IsSpace(s[i])
    ensures r == [] || !IsSpace(r[|r| - 1])
  {
    if s != [] && IsSpace(s[|s| - 1]) then StripRight(s[..|s| - 1]) else s
  }

  /** Python's `s.strip()`: the longest factor of `s` with no whitespace at either end. */
  function Strip(s: string): (r: string)
    ensures var k := |s| - |StripLeft(s)|;
      && k + |r| <= |s| && r == s[k..k + |r|]
      && (forall i :: 0 <= i < k ==> IsSpace(s[i]))
      && (forall i :: k + |r| <= i < |s| ==> IsSpace(s[i]))
    ensures r == [] || (!IsSpace(r[0]) && !IsSpace(r[|r| - 1]))
  {
    var l := StripLeft(s);
    var r := StripRight(l);
    SuffixPrefixSlice(s, l, r);
    r
  }

  /** A prefix `r` of a suffix `l` of `s` is the factor of `s` that starts where `l` does. */
  lemma SuffixPrefixSlice(s: string, l: string, r: string)
    requires |l| <= |s| && l == s[|s| - |l|..]
    requires |r| <= |l| && r == l[..|r|]
    ensures var k := |s| - |l|; r == s[k..k + |r|]
    ensures forall j :: 0 <= j < |l| ==> s[|s| - |l| + j] == l[j]
  {
  }

  lemma {:induction false} StripLeftOfClean(s: string)
    requires s == [] || !IsSpace(s[0])
    ensures StripLeft(s) == s
  {
  }

  lemma {:induction false} StripRightOfClean(s: string)
    requires s == [] || !IsSpace(s[|s| - 1])
    ensures StripRight(s) == s
  {
  }

  /** Stripping is idempotent: a stripped string is its own strip. */
  lemma StripIdempotent(s: string)
    ensures Strip(Strip(s)) == Strip(s)
  {
    var r := Strip(s);
    StripLeftOfClean(r);
    StripRightOfClean(r);
  }

  // ---------------------------------------------------------------------
  // int() of a string

  /** The body of a Python integer literal: digits, single underscores between digits. */
  predicate IsDigitGroup(t: string) {
    && |t| > 0
    && IsDigit(t[0]) && IsDigit(t[|t| - 1])
    && (forall i :: 0 <= i < |t| ==> IsDigit(t[i]) || t[i] == '_')
    && (forall i :: 0 <= i < |t| - 1 ==> !(t[i] == '_' && t[i + 1] == '_'))
  }

  function DropUnderscores(t: string): (r: string)
    requires forall i :: 0 <= i < |t| ==> IsDigit(t[i]) || t[i] == '_'
    ensures forall i :: 0 <= i < |r| ==> IsDigit(r[i])
  {
    if t == [] then []
    else if t[0] == '_' then DropUnderscores(t[1..])
    else [t[0]] + DropUnderscores(t[1..])
  }

  /** Python's `int(s)` for a string: surrounding whitespace, an optional sign, then a digit group. */
  function ParseInt(s: string): (r: Option<int>)
  {
    ParseStripped(Strip(s))
  }

  /** `int()` once the surrounding whitespace is gone. */
  function ParseStripped(t: string): (r: Option<int>)
  {
    if |t| > 0 && (t[0] == '-' || t[0] == '+') then
      var body := t[1..];
      if IsDigitGroup(body) then
        var v: int := DigitsValue(DropUnderscores(body));
        Some(if t[0] == '-' then -v else v)
      else None
    else if IsDigitGroup(t) then Some(DigitsValue(DropUnderscores(t)))
    else None
  }

  lemma {:induction false} DropUnderscoresOfDigits(t: string)
    requires forall i :: 0 <= i < |t| ==> IsDigit(t[i])
    ensures DropUnderscores(t) == t
  {
    if t != [] {
      DropUnderscoresOfDigits(t[1..]);
    }
  }

  lemma {:induction false} DigitsValueOfDecimal(n: nat)
    ensures DigitsValue(NatToDecimal(n)) == n
  {
    if n >= 10 {
      var ds := NatToDecimal(n);
      DigitsValueOfDecimal(n / 10);
      assert ds[..|ds| - 1] == NatToDecimal(n / 10);
    }
  }

  lemma {:induction false} ParseDigitsOfDecimal(m: nat)
    ensures IsDigitGroup(NatToDecimal(m))
    ensures DigitsValue(DropUnderscores(NatToDecimal(m))) == m
  {
    DropUnderscoresOfDigits(NatToDecimal(m));
    DigitsValueOfDecimal(m);
  }

  /** A decimal rendering has no surrounding whitespace to strip. */
  lemma StripOfDecimal(n: int)
    ensures Strip(IntToDecimal(n)) == IntToDecimal(n)
  {
    var d := IntToDecimal(n);
    assert !IsSpace(d[0]) && !IsSpace(d[|d| - 1]);
    StripLeftOfClean(d);
    StripRightOfClean(d);
  }

  lemma {:induction false} ParseNatural(m: nat)
    ensures ParseStripped(NatToDecimal(m)) == Some(m)
  {
    var d := NatToDecimal(m);
    ParseDigitsOfDecimal(m);
    assert d[0] != '-' && d[0] != '+';
  }

  lemma {:induction false} ParseNegative(m: nat)
    requires m > 0
    ensures ParseStripped("-" + NatToDecimal(m)) == Some(-(m as int))
  {
    var d := "-" + NatToDecimal(m);
    ParseDigitsOfDecimal(m);
    assert d[0] == '-' && d[1..] == NatToDecimal(m);
  }

  /** `int(str(n)) == n`: the decimal rendering of an int parses back to it. */
  lemma {:induction false} ParseIntOfDecimal(n: int)
    ensures ParseInt(IntToDecimal(n)) == Some(n)
  {
    var d := IntToDecimal(n);
    if n < 0 {
      ParseNegative(-n);
      assert ParseStripped(d) == Some(n);
    } else {
      ParseNatural(n);
      assert ParseStripped(d) == Some(n);
    }
    StripOfDecimal(n);
    assert ParseInt(d) == ParseStripped(Strip(d));
  }

}

=== FILE: video_utils.dfy ===
/**
 * Frame-rate choice for video uploads. The frame conversion and MP4
 * encoding around it are numpy/OpenCV work and are not part of this model.
 */
module VideoUtils {
  import opened Values

  const DefaultFps: real := 24.0

  /**
   * The number a value stands for when `isinstance(v, (int, float))` holds.
   * Python's `bool` is a subclass of `int`, so True and False pass as 1 and 0.
   */
  function Numeric(j: Json): Option<real> {
    match j
    case JNum(n) => Some(n)
    case JBool(b) => Some(if b then 1.0 else 0.0)
    case _ => None
  }

  predicate UsableFps(j: Json) {
    Numeric(j).Some? && Numeric(j).value > 0.0
  }

  /** The value of the first usable candidate, scanning left to right. */
  function FirstUsable(candidates: seq<Json>): (r: Option<real>)
    ensures r.Some? <==> exists i :: 0 <= i < |candidates| && UsableFps(candidates[i])
    ensures r.Some? ==>
      exists i ::
        && 0 <= i < |candidates| && UsableFps(candidates[i])
        && r.value == Numeric(candidates[i]).value
        && forall k :: 0 <= k < i ==> !UsableFps(candidates[k])
  {
    if candidates == [] then None
    else if UsableFps(candidates[0]) then Some(Numeric(candidates[0]).value)
    else
      var r := FirstUsable(candidates[1..]);
      assert forall i :: 1 <= i < |candidates| ==> candidates[i] == candidates[1..][i - 1];
      r
  }

  /**
   * `loaded_fps` if it is a positive number, else `source_fps` if it is,
   * else 24 — also when the metadata is not a dict at all.
   */
  function ResolveFps(info: Json): (fps: real)
    ensures fps > 0.0
    ensures !info.JObj? ==> fps == DefaultFps
    ensures UsableFps(GetOrNull(info, "loaded_fps")) ==> fps == Numeric(GetOrNull(info, "loaded_fps")).value
    ensures !UsableFps(GetOrNull(info, "loaded_fps")) && UsableFps(GetOrNull(info, "source_fps"))
      ==> fps == Numeric(GetOrNull(info, "source_fps")).value
    ensures !UsableFps(GetOrNull(info, "loaded_fps")) && !UsableFps(GetOrNull(info, "source_fps"))
      ==> fps == DefaultFps
  {
    if info.JObj? then
      var candidates := [GetOrNull(info, "loaded_fps"), GetOrNull(info, "source_fps")];
      assert candidates[0] == GetOrNull(info, "loaded_fps") && candidates[1] == GetOrNull(info, "source_fps");
      match FirstUsable(candidates)
      case Some(v) => v
      case None => DefaultFps
    else DefaultFps
  }

  /** A boolean True in the metadata is taken as a frame rate of one. */
  lemma TrueIsOneFps()
    ensures ResolveFps(JObj(map["loaded_fps" := JBool(true)])) == 1.0
  {
  }
}
